=== FILE: README.md ===
# Engagement metrics and slack detection, modelled in Dafny

This project models the scoring core of an engineering-engagement
dashboard.

- Activity events (Jira tickets, GitHub pull requests and commits, documents,
  calendar meetings) are reduced to seven weekly counters per user.
- The counters are normalised against the user's role cohort and blended
  into a composite score between 0 and 100. The blend uses role-specific
  weights.
- The score is compared with a baseline, which is the mean of the user's
  recent scores.
- A detector classifies each week as `healthy`, `watch` or `needs_review`.
  Exception flags can override the classification: PTO, onboarding, a role
  change, or on-call duty.
- The user-metrics endpoint adds a trend (`improving`, `stable` or
  `declining`) against the previous weeks.

Modules, one per source concern:

- `Time` covers `utils/time.py`. Timestamps are integer microseconds from a
  Monday-midnight epoch, and dates are integer days.
- `Records` covers the entities: users, activity events, the seven counters,
  exception flags, and the `weekly_user_metrics` row.
- `Config` covers the weight sets and thresholds of `core/config.py`.
- `Store` covers the `weekly_user_metrics` table. The table is a sequence of
  rows, with the unique (user, week) index as an invariant.
- `Stats` covers sum, mean and sample variance over `real`.
- `WeeklyReduction` covers `calculate_weekly_metrics`.
- `Scoring` covers `get_role_averages`, `normalize_metrics` and
  `calculate_composite_score`.
- `MetricsService` covers `calculate_baseline_score` and `aggregate_week`.
- `SlackDetection` covers `check_exceptions`, `detect_engagement_status`,
  the history queries and `update_engagement_status`.
- `MetricsRoute` covers the trend and status default of `get_user_metrics`.

Inputs that the source reads from its environment become parameters:

- The clock `datetime.utcnow()` becomes a timestamp `now`.
- `statistics.stdev` becomes a function `stdev: seq<real> -> real`.
- The activity-event table becomes a sequence of events.

Database writes return the new table.

Three behaviours of the code are easy to miss, and the model keeps them:

- **Event window.** The event query of `calculate_weekly_metrics` runs
  from midnight to 23:59:59.999999 of the `week_start` date, so it covers
  one calendar day (`backend/app/services/metrics_service.py:30-38`,
  `WeeklyReduction.WindowIsOneDay`).
- **Empty cohort.** With no cohort rows, `get_role_averages` returns
  averages 0 and deviations 1, so the normalised values are the raw
  counters themselves (`backend/app/services/metrics_service.py:98-114`,
  `Scoring.EmptyCohortKeepsRawValues`).
- **Re-running `aggregate_week`.** The baseline is queried before the row
  is written, so the first re-run sees the score the previous run stored
  and can store a different baseline
  (`MetricsService.AggregateRerunChangesBaseline`). For a non-zero user id
  and the same clock reading, the second re-run changes nothing
  (`MetricsService.AggregateSettlesAfterSecondRun`). User id 0 is not
  excluded from its own cohort (`if exclude_user_id:`,
  `backend/app/services/metrics_service.py:93-94`), so its score can keep
  moving. A later clock reading moves the baseline's cutoff, so the stored
  baseline can change as well.

## Model

| member | source | states |
|---|---|---|
| Time.WeekStart | backend/app/utils/time.py:8-14 | the week start is a Monday at midnight, is a multiple of a week, and the timestamp lies in the week it opens |
| Time.WeekStartUnique | backend/app/utils/time.py:8-14 | any Monday-midnight timestamp whose week contains t is the week start of t |
| Time.WeekStartIdempotent | backend/app/utils/time.py:8-14 | taking the week start of a week start changes nothing |
| Time.WeekRange | backend/app/utils/time.py:17-24 | the range opens at the week start and closes one second before the next week; it contains every whole-second timestamp of the week |
| Time.WeekRangeMissesLastSecond | backend/app/utils/time.py:17-24 | the last microsecond of Sunday has the same week start but lies after the end of the returned range |
| Time.WeekRangeInclusive | backend/app/utils/time.py:17-24 | the corrected range holds exactly the timestamps whose week start is its start |
| Time.IsSameWeek | backend/app/utils/time.py:34-38 | two timestamps are in the same week iff the second lies within the week that opens at the first one's week start |
| Time.SameWeekIsEquivalence | backend/app/utils/time.py:34-38 | being in the same week is reflexive, symmetric and transitive |
| Time.WeeksAgoDate | backend/app/utils/time.py:27-31 | the cutoff date is today's date minus seven days per week |
| Time.DateOf | backend/app/services/metrics_service.py:30-31 | a timestamp lies between its date's midnight and the next midnight |
| Time.LastInstant | backend/app/services/metrics_service.py:30 | the day's last instant still falls on that day, and one microsecond later falls on the next day |
| WeeklyReduction.WindowIsOneDay | backend/app/services/metrics_service.py:30-38 | an event is in the query window iff it falls on the `week_start` date itself; the next midnight is outside the window |
| WeeklyReduction.WindowEvents | backend/app/services/metrics_service.py:34-38 | the selected events are exactly the user's events inside the window |
| WeeklyReduction.WindowEventsCounts | backend/app/services/metrics_service.py:34-38 | each of the user's events inside the window is selected as many times as it occurs in the log, and every other event is dropped |
| WeeklyReduction.WindowEventsSnoc | backend/app/services/metrics_service.py:34-38 | one more logged event extends the selection by itself when it is the user's and inside the window, and leaves the selection unchanged otherwise |
| WeeklyReduction.WeeklyMetricsSnoc | backend/app/services/metrics_service.py:18-72 | one more logged event changes the week's counters by exactly one loop step when it is the user's and inside the window, and not at all otherwise |
| WeeklyReduction.WeeklyMetricsCounts | backend/app/services/metrics_service.py:18-72 | the week's counters are the independent per-pair counts and sums over the user's events inside the window |
| WeeklyReduction.Truncate | backend/app/services/metrics_service.py:63 | `int()` truncates toward zero, for non-negative and for negative values |
| WeeklyReduction.StepAddsEvent | backend/app/services/metrics_service.py:50-70 | one loop step adds the event's own contribution, as defined independently by counting and summing per (source, type) pair |
| WeeklyReduction.ReferenceConcat | backend/app/services/metrics_service.py:50-70 | the per-pair counts and sums of two event lists add up |
| WeeklyReduction.TallyCountsEvents | backend/app/services/metrics_service.py:40-72 | the loop's counters equal the independent definition: tickets counted, story points summed, PRs authored and reviewed counted, commit counts summed after truncation, documents counted, meeting hours summed |
| WeeklyReduction.TallyIgnoresOrder | backend/app/services/metrics_service.py:50-70 | the result does not depend on the order of the events, and splitting the list splits the counters |
| WeeklyReduction.UnrecognisedEventIgnored | backend/app/services/metrics_service.py:50-70 | an event of any other (source, type) pair leaves all seven counters unchanged |
| WeeklyReduction.TallyNonNegative | backend/app/services/metrics_service.py:40-70 | with non-negative metadata every counter is non-negative |
| Config.WeightsFor | backend/app/services/metrics_service.py:212 | each weight set is non-negative and sums to 1; backend, frontend, devops and manager get their own tables, and an unknown role gets the backend weights |
| Config.FrontendScoredLikeBackend | backend/app/core/config.py:34-51 | the frontend and backend weight sets coincide |
| Config.ThresholdsOrdered | backend/app/core/config.py:73-76 | 0 < low-engagement threshold < sudden-drop threshold < 1, and 0 < watch weeks < needs-review weeks |
| Config.SuddenDropIsBelowThreshold | backend/app/core/config.py:73-74 | with a positive baseline, a score under the sudden-drop line is also under the low-engagement line |
| Scoring.RoleAverages | backend/app/services/metrics_service.py:98-151 | an empty cohort gives averages 0 and deviations 1; one row gives deviation 1; each average times the cohort size is the column sum; with two or more rows the deviation is stdev floored at 0.1; every deviation is at least 0.1 |
| Scoring.AverageWithinCohort | backend/app/services/metrics_service.py:116-124 | each average lies between the smallest and the largest value in the cohort |
| Scoring.UniformColumnGetsFloor | backend/app/services/metrics_service.py:126-150 | when a cohort of two or more rows agrees on a metric, and stdev is the square root of the sample variance, that deviation is exactly the floor 0.1 |
| Scoring.NormalizeInverts | backend/app/services/metrics_service.py:153-195 | multiplying a normalised metric by the deviation and adding the average gives back the raw value; without a positive deviation the metric is 0 |
| Scoring.ZScoreInverts | backend/app/services/metrics_service.py:166-169 | the same inversion for a single value |
| Scoring.EmptyCohortKeepsRawValues | backend/app/services/metrics_service.py:98-114 | with the empty-cohort statistics the normalised metrics equal the raw counters |
| Scoring.Clamp | backend/app/services/metrics_service.py:227 | the result lies in [0, 100]; values in range are unchanged, values below 0 become 0 and values above 100 become 100 |
| Scoring.CompositeScore | backend/app/services/metrics_service.py:212-229 | the composite score lies in [0, 100] |
| Scoring.CompositeScoreIsClampedAffine | backend/app/services/metrics_service.py:212-229 | the composite score is 50 plus ten times the role-weighted sum of the normalised metrics, clamped to [0, 100] |
| Scoring.BlendIsAffine | backend/app/services/metrics_service.py:214-224 | the unclamped blend is 50 plus 10 times the weighted sum of the normalised metrics |
| Scoring.NeutralScoresFifty | backend/app/services/metrics_service.py:212-229 | an exactly average week scores 50 for every role |
| Scoring.CompositeMonotone | backend/app/services/metrics_service.py:212-229 | raising any normalised metric never lowers the composite score |
| Scoring.DotMonotone | backend/app/services/metrics_service.py:216-224 | with non-negative weights the weighted sum is monotone in every metric |
| Scoring.UnknownRoleScoredAsBackend | backend/app/services/metrics_service.py:212 | a role without its own weight set is scored exactly as backend |
| Records.FreshRow | backend/app/services/metrics_service.py:304-309 | a newly created row has its key set and no scores, status or flags |
| Store.Lookup | backend/app/services/slack_detection.py:204-207 | a lookup is empty iff no row has the key; otherwise it returns a row of the table with that key, which under the unique index is the only such row |
| Store.AsMapAgreesWithLookup | backend/app/models/weekly_metrics.py:40 | the keyed view holds a key iff a lookup finds it, and maps it to the row found |
| Store.Upsert | backend/app/services/metrics_service.py:299-322 | the written row is in the new table, every other row of the new table was already in the old one, and the table grows by at most one row |
| Store.UpsertLookup | backend/app/services/metrics_service.py:299-322 | after a write the key reads as the written row and every other key reads as before; the table grows by one row only when the key was new |
| Store.UpsertKeepsUnique | backend/app/models/weekly_metrics.py:40 | a write to a table with at most one row per (user, week) keeps it so |
| Store.UpsertIsMapUpdate | backend/app/services/metrics_service.py:299-322 | seen as a map from key to row, a write is a map update |
| Store.UpsertSameRow | backend/app/services/metrics_service.py:311-322 | writing back the row a key already holds leaves the table unchanged |
| MetricsService.CohortRows | backend/app/services/metrics_service.py:87-96 | the cohort is exactly the rows of that week whose user exists, has the role and is active, minus the excluded user when that id is non-zero |
| MetricsService.CohortIgnoresOwnRow | backend/app/services/metrics_service.py:93-94 | for a non-zero user id, writing the user's own row does not change the cohort the user is compared against |
| MetricsService.BaselineRows | backend/app/services/metrics_service.py:252-256 | the baseline query returns exactly the user's scored rows dated on or after the cutoff, with no upper bound |
| MetricsService.Scores | backend/app/services/metrics_service.py:261 | the score list is empty iff no row has a score, and holds exactly the rows' present scores |
| MetricsService.BaselineScore | backend/app/services/metrics_service.py:258-265 | there is no baseline iff no selected row has a score |
| MetricsService.CohortRowsCounts | backend/app/services/metrics_service.py:87-96 | each cohort row is returned as many times as the table holds it, and every other row is dropped |
| MetricsService.BaselineRowsCounts | backend/app/services/metrics_service.py:252-256 | each of the user's scored rows from the cutoff on is returned as many times as the table holds it, and every other row is dropped |
| MetricsService.ScoresCounts | backend/app/services/metrics_service.py:261 | each score occurs in the list as often as a row carries it |
| MetricsService.ScoresInOrder | backend/app/services/metrics_service.py:261 | on rows that all carry a score, the list holds one score per row, in row order |
| MetricsService.BaselineIsMean | backend/app/services/metrics_service.py:258-265 | a present baseline is the arithmetic mean of the selected scores: there is at least one score, and the baseline times their number is their sum |
| MetricsService.BaselineWithinScores | backend/app/services/metrics_service.py:258-265 | a present baseline lies between the smallest and the largest selected score |
| MetricsService.BaselineDependsOnScores | backend/app/services/metrics_service.py:261-265 | the baseline depends only on the list of scores |
| MetricsService.BaselineScoresIgnoreRewrite | backend/app/services/metrics_service.py:252-256 | rewriting a row with its own score leaves the baseline's score list unchanged |
| MetricsService.WeekScore | backend/app/services/metrics_service.py:284-293 | the score computed for a week lies in [0, 100] |
| MetricsService.AggregateWeek | backend/app/services/metrics_service.py:279-325 | fails iff the user is unknown; otherwise the row holds the week's counters, the score against the pre-write cohort and the baseline read before the write; it keeps its flags and status, or starts without them when new; other keys are unchanged and the unique index is kept |
| MetricsService.AggregateRerunKeepsScore | backend/app/services/metrics_service.py:279-322 | for a non-zero user id, re-running on the same events keeps the counters, score, flags and status |
| MetricsService.AggregateSettlesAfterSecondRun | backend/app/services/metrics_service.py:279-322 | for a non-zero user id and the same clock reading, a third run on the same events returns the table the second run produced |
| MetricsService.AggregateRerunChangesBaseline | backend/app/services/metrics_service.py:296 | on an empty table a first run stores no baseline, and a second run stores baseline 50 |
| SlackDetection.CheckExceptions | backend/app/services/slack_detection.py:18-72 | a week is excused iff flags exist and one of these holds: PTO covers it (closed interval); onboarding lasts until at least that week; a role change was at most 14 days before it; or the on-call week text is that week's ISO date |
| SlackDetection.PtoCoversClosedInterval | backend/app/services/slack_detection.py:33-43 | PTO excuses a week iff start <= week <= end |
| SlackDetection.RoleChangeHasNoLowerBound | backend/app/services/slack_detection.py:55-65 | a role change excuses every week up to 14 days after it, including weeks before the change |
| SlackDetection.OnCallCoversOneWeek | backend/app/services/slack_detection.py:67-70 | an on-call flag excuses exactly the week it names |
| SlackDetection.UnparsableDatesNeverCover | backend/app/services/slack_detection.py:36-65 | flags whose dates cannot be parsed excuse nothing |
| SlackDetection.DetectEngagementStatus | backend/app/services/slack_detection.py:74-157 | an excused week or a missing score or baseline is healthy; needs_review requires at least three recent rows and at least three of them below the low-engagement line; a watch with fewer than two recent rows can only come from a sudden drop |
| SlackDetection.EarlyExitIgnoresHistory | backend/app/services/slack_detection.py:87-96 | when an exception applies or a score is missing, the history is irrelevant |
| SlackDetection.ThreeWitnesses | backend/app/services/slack_detection.py:102-108 | at least three rows satisfy a condition iff three distinct positions satisfy it |
| SlackDetection.TwoWitnesses | backend/app/services/slack_detection.py:114-120 | at least two rows satisfy a condition iff two distinct positions satisfy it |
| SlackDetection.NeedsReviewIffThreeLowWeeks | backend/app/services/slack_detection.py:98-111 | the status is needs_review iff there is no exception, both scores are present, and three distinct recent rows are below the low-engagement line without an exception |
| SlackDetection.TwoLowWeeksGiveWatch | backend/app/services/slack_detection.py:113-123 | two low recent rows, but not three, give watch |
| SlackDetection.LaterWatchRules | backend/app/services/slack_detection.py:125-157 | with fewer than two low history rows and no early exit, the status is never needs_review, and it is watch iff a sudden drop, low collaboration or sustained inactivity applies |
| SlackDetection.HalfBaselineThreeWeeksNeedsReview | backend/app/services/slack_detection.py:98-111 | three weeks at half the baseline give needs_review |
| SlackDetection.SuddenDropExample | backend/app/services/slack_detection.py:125-131 | a score of 45 against baseline 80, after 75 the week before, gives watch |
| SlackDetection.TwoIdleWeeksExample | backend/app/services/slack_detection.py:141-155 | two weeks without tickets, PRs or commits give watch even at baseline |
| SlackDetection.RecentWeeksFrom | backend/app/services/slack_detection.py:169-173 | at most `limit` rows, all the user's own and dated within [cutoff, week_start], each as stored, in strictly descending week order |
| SlackDetection.RecentWeeksComplete | backend/app/services/slack_detection.py:169-173 | no row in range is skipped unless `limit` newer rows were taken first |
| SlackDetection.RecentWeeks | backend/app/services/slack_detection.py:159-175 | the recent rows lie between `weeks` weeks before today and the week start, and there are at most `weeks` of them |
| SlackDetection.PreviousWeek | backend/app/services/slack_detection.py:177-190 | the previous-week row, if present, is the user's row dated seven days earlier; if absent, there is no such row |
| SlackDetection.StatusFor | backend/app/services/slack_detection.py:192-212 | the status computed for a stored row is healthy when the row's own flags excuse its week or a score or baseline is missing |
| SlackDetection.StatusForNeedsReview | backend/app/services/slack_detection.py:98-111 | a computed needs_review rests on three of the user's rows in the table, in three different weeks between three weeks before today and the week itself, each below the low-engagement line without an exception |
| SlackDetection.LowRowsInTable | backend/app/services/slack_detection.py:159-175 | three low rows in a newest-first history drawn from the table are three of the user's rows in distinct weeks within the history's range |
| SlackDetection.UpdateEngagementStatus | backend/app/services/slack_detection.py:192-218 | fails iff the row is missing; otherwise only that row's status changes, to the detected one; the size and the unique index are kept |
| MetricsRoute.ScoreTrend | backend/app/api/routes/metrics.py:69-85 | the trend is stable with fewer than two previous weeks, with fewer than two truthy scores among the newest four, or with a zero or missing current score; otherwise it is improving iff the current score exceeds 110% of the mean of those scores, and declining iff it does not but falls below 90% of it |
| MetricsRoute.Classify | backend/app/api/routes/metrics.py:69-85 | a trend other than stable needs two previous weeks, two recent scores and a truthy current score; with them it is improving iff above 110% of the recent mean and declining iff not above 110% but below 90% |
| MetricsRoute.Compare | backend/app/api/routes/metrics.py:73-79 | improving iff above 110% of the mean; declining iff not above 110% and below 90%; stable iff between 90% and 110% inclusive |
| MetricsRoute.TrendWitness | backend/app/api/routes/metrics.py:71-77 | an improving week beats 110% of at least one compared week, and a declining week falls below 90% of at least one |
| MetricsRoute.TrendMonotoneInCurrent | backend/app/api/routes/metrics.py:73-79 | against the same history, a higher positive current score never gives a worse trend |
| MetricsRoute.TrendScaleInvariant | backend/app/api/routes/metrics.py:69-85 | scaling the current and all previous scores by one positive factor leaves the trend unchanged |
| MetricsRoute.TruthyScores | backend/app/api/routes/metrics.py:70 | the kept scores are non-zero and no more numerous than the inputs |
| MetricsRoute.TruthyScoresCounts | backend/app/api/routes/metrics.py:70 | a value is kept iff it is non-zero and present among the scores, and each kept value occurs as often as it does among the scores |
| MetricsRoute.Summarize | backend/app/api/routes/metrics.py:87-95 | the reported status is the stored one, or healthy when none is stored; with fewer than two previous weeks the trend is stable |

## Left out

- Database sessions, commits, refreshes and the ORM are not modelled.
  Queries become filters over a sequence of rows, and writes return the new
  table.
- Floating point is not modelled. Scores, weights and thresholds are exact
  `real`s, so rounding of `0.1`, `1.1` and `0.9` is absent.
- `statistics.stdev` is not modelled. It is a parameter, because the square
  root is not expressible here. `Scoring.UniformColumnGetsFloor` states what
  follows when the parameter is the true sample deviation.
- `datetime.utcnow()` is not modelled. The clock reading is the parameter
  `now`.
- Python's `datetime` range (years 1 to 9999) is not modelled. Timestamps
  are unbounded integers.
- Parsing of ISO date strings in `check_exceptions` is not modelled.
  - A flag's date is either a parsed date or unparsable.
  - The exception handler that swallows a parse failure becomes "the clause
    does not apply".
  - `on_call_week` is either the ISO text of a date or some other text.
- Non-string, non-date flag values are not modelled. In the source they can
  raise inside the `try` and are swallowed the same way.
- Event metadata values are reals. A metadata value that `float()` or
  `int()` would reject is not modelled.
- `get_user_metrics` as a whole is not modelled:
  - the permission check;
  - the 404 for an unknown user;
  - aggregating the current week when its row is missing;
  - the query for previous weeks.

  Only the trend and the status default are modelled, with the previous
  rows supplied newest first.
- The connectors that produce activity events, the reports routes, the
  background job, authentication and the user routes are outside this
  core.
- SlackDetection.DetectEngagementStatus: the function is exact, and its
  contract states its main consequences. The rule order is stated by three
  lemmas: `NeedsReviewIffThreeLowWeeks`, `TwoLowWeeksGiveWatch` and
  `LaterWatchRules`.

## Findings

| source | as written | input that shows it | evidently intended | confidence | as-written member | corrected member |
|---|---|---|---|---|---|---|
| backend/app/utils/time.py:23 | the week ends at start + 6 days 23:59:59, so timestamps in the last second of Sunday (23:59:59.000001 to 23:59:59.999999) lie after the returned end, although `get_week_start` places them in that week | any timestamp at Sunday 23:59:59.5 | the range closes at the last microsecond of the week, so it holds exactly the timestamps sharing its week start | not executed | Time.WeekRangeMissesLastSecond | Time.WeekRangeInclusive |

=== FILE: config.dfy ===
/** The metric weights and engagement thresholds of
    `backend/app/core/config.py`, as constants. */
module Config {
  import opened Records

  const BackendWeights: PerMetric := PerMetric(0.25, 0.20, 0.15, 0.15, 0.10, 0.10, 0.05)
  const FrontendWeights: PerMetric := PerMetric(0.25, 0.20, 0.15, 0.15, 0.10, 0.10, 0.05)
  const DevopsWeights: PerMetric := PerMetric(0.20, 0.15, 0.15, 0.15, 0.15, 0.15, 0.05)
  const ManagerWeights: PerMetric := PerMetric(0.15, 0.10, 0.10, 0.10, 0.05, 0.20, 0.30)

  /** The roles with their own entry in `COMPOSITE_SCORE_WEIGHTS`. */
  const WeightedRoles: set<string> := {"backend", "frontend", "devops", "manager"}

  const LowEngagementThreshold: real := 0.3
  const SuddenDropThreshold: real := 0.4
  const WatchWeeks: nat := 2
  const NeedsReviewWeeks: nat := 3

  predicate IsWeightSet(w: PerMetric) {
    && w.Sum() == 1.0
    && forall m :: w.At(m) >= 0.0
  }

  /** `COMPOSITE_SCORE_WEIGHTS.get(role, COMPOSITE_SCORE_WEIGHTS["backend"])`:
      every role, known or not, gets a non-negative weight set summing to 1,
      and a role without an entry gets the backend weights. */
  function WeightsFor(role: string): (w: PerMetric)
    ensures IsWeightSet(w)
    ensures role !in WeightedRoles ==> w == BackendWeights
    ensures role == "backend" ==> w == BackendWeights
    ensures role == "frontend" ==> w == FrontendWeights
    ensures role == "devops" ==> w == DevopsWeights
    ensures role == "manager" ==> w == ManagerWeights
  {
    if role == "backend" then BackendWeights
    else if role == "frontend" then FrontendWeights
    else if role == "devops" then DevopsWeights
    else if role == "manager" then ManagerWeights
    else BackendWeights
  }

  /** The backend and frontend weight sets are identical, so the two roles
      are scored alike. */
  lemma FrontendScoredLikeBackend()
    ensures WeightsFor("frontend") == WeightsFor("backend")
  {
  }

  /** The thresholds are ordered: a sudden drop is a deeper fall than the
      low-engagement line, and watch needs fewer weeks than review. */
  lemma ThresholdsOrdered()
    ensures 0.0 < LowEngagementThreshold < SuddenDropThreshold < 1.0
    ensures 0 < WatchWeeks < NeedsReviewWeeks
  {
  }

  /** Consequence of the ordering: with a positive baseline, a score below
      the sudden-drop line is also below the low-engagement line. */
  lemma SuddenDropIsBelowThreshold(composite: real, baseline: real)
    requires baseline > 0.0
    requires composite < baseline * (1.0 - SuddenDropThreshold)
    ensures composite < baseline * (1.0 - LowEngagementThreshold)
  {
  }
}

=== FILE: metrics_route.dfy ===
/** The score-trend rule and the status default of `get_user_metrics`
    (`backend/app/api/routes/metrics.py`). The previous weeks' rows are
    passed in newest first, as the route's query orders them. */
module MetricsRoute {
  import opened Wrappers
  import opened Records
  import opened Stats

  datatype Trend = Improving | Stable | Declining

  /** The trend averages over at most this many previous weeks. */
  const TrendWindow: nat := 4

  /** `[s for s in scores if s]`: the present, non-zero scores. */
  function TruthyScores(scores: seq<Option<real>>): (xs: seq<real>)
    ensures |xs| <= |scores|
    ensures forall x :: x in xs ==> x != 0.0
  {
    if scores == [] then []
    else
      var rest := TruthyScores(scores[1..]);
      if Truthy(scores[0]) then [scores[0].value] + rest else rest
  }

  /** The filter keeps exactly the truthy scores, each as often as it
      occurs. */
  lemma {:induction false} TruthyScoresCounts(scores: seq<Option<real>>)
    ensures forall x :: x in TruthyScores(scores) <==> x != 0.0 && Some(x) in scores
    ensures forall x :: multiset(TruthyScores(scores))[x] == (if x != 0.0 then multiset(scores)[Some(x)] else 0)
  {
    if scores != [] {
      TruthyScoresCounts(scores[1..]);
      assert scores == [scores[0]] + scores[1..];
    }
  }

  function Window(scores: seq<Option<real>>): seq<Option<real>> {
    if |scores| < TrendWindow then scores else scores[..TrendWindow]
  }

  /** `[s for s in scores[:4] if s]`: the truthy scores among the newest
      four previous weeks. */
  function Recent(previous: seq<Option<real>>): seq<real> {
    TruthyScores(Window(previous))
  }

  /** The trend of `get_user_metrics`: `stable` unless there are two
      previous weeks, two truthy scores among the newest four and a truthy
      current score; then above 110% of their mean is `improving` and below
      90% is `declining`. */
  function ScoreTrend(current: Option<real>, previous: seq<Option<real>>): (trend: Trend)
    ensures |previous| < 2 ==> trend == Stable
    ensures !Truthy(current) ==> trend == Stable
    ensures |Recent(previous)| < 2 ==> trend == Stable
    ensures |previous| >= 2 && Truthy(current) && |Recent(previous)| >= 2 ==>
      var avg := Mean(Recent(previous));
      && (trend == Improving <==> current.value > avg * 1.1)
      && (trend == Declining <==> current.value <= avg * 1.1 && current.value < avg * 0.9)
  {
    Classify(current, |previous|, Recent(previous))
  }

  /** The comparison step of the trend rule, given the number of previous
      weeks and their truthy scores. */
  function Classify(current: Option<real>, weeks: nat, recent: seq<real>): (trend: Trend)
    ensures trend != Stable ==> weeks >= 2 && |recent| >= 2 && Truthy(current)
    ensures weeks >= 2 && |recent| >= 2 && Truthy(current) ==>
      (trend == Improving <==> current.value > Mean(recent) * 1.1)
      && (trend == Declining <==> current.value <= Mean(recent) * 1.1 && current.value < Mean(recent) * 0.9)
  {
    if weeks >= 2 && |recent| >= 2 && Truthy(current) then Compare(current.value, Mean(recent))
    else Stable
  }

  /** A truthy current score against the mean of the recent ones. */
  function Compare(current: real, avg: real): (trend: Trend)
    ensures trend == Improving <==> current > avg * 1.1
    ensures trend == Declining <==> current <= avg * 1.1 && current < avg * 0.9
    ensures trend == Stable <==> avg * 0.9 <= current <= avg * 1.1
  {
    if current > avg * 1.1 then Improving
    else if current < avg * 0.9 then Declining
    else Stable
  }

  function Rank(trend: Trend): int {
    match trend
    case Declining => 0
    case Stable => 1
    case Improving => 2
  }

  /** Against the same history, a higher positive current score never gives
      a worse trend. */
  lemma TrendMonotoneInCurrent(a: real, b: real, previous: seq<Option<real>>)
    requires 0.0 < a <= b
    ensures Rank(ScoreTrend(Some(a), previous)) <= Rank(ScoreTrend(Some(b), previous))
  {
  }

  /** An improving week beats 110% of at least one of the weeks it is
      compared with, and a declining week falls below 90% of at least one:
      the mean lies between the extremes. */
  lemma TrendWitness(current: Option<real>, previous: seq<Option<real>>)
    ensures ScoreTrend(current, previous) == Improving ==>
      exists i :: 0 <= i < |Recent(previous)| && current.value > Recent(previous)[i] * 1.1
    ensures ScoreTrend(current, previous) == Declining ==>
      exists j :: 0 <= j < |Recent(previous)| && current.value < Recent(previous)[j] * 0.9
  {
    var recent := Recent(previous);
    if ScoreTrend(current, previous) != Stable {
      MeanBetweenExtremes(recent);
      var i :| 0 <= i < |recent| && recent[i] <= Mean(recent);
      var j :| 0 <= j < |recent| && Mean(recent) <= recent[j];
      if ScoreTrend(current, previous) == Improving {
        assert current.value > recent[i] * 1.1;
        assert exists i :: 0 <= i < |recent| && current.value > recent[i] * 1.1;
      } else {
        assert current.value < recent[j] * 0.9;
        assert exists j :: 0 <= j < |recent| && current.value < recent[j] * 0.9;
      }
    }
  }

  function ScaleScore(score: Option<real>, k: real): Option<real> {
    match score
    case Some(x) => Some(k * x)
    case None => None
  }

  function ScaleScores(scores: seq<Option<real>>, k: real): (ys: seq<Option<real>>)
    ensures |ys| == |scores|
    ensures forall i :: 0 <= i < |scores| ==> ys[i] == ScaleScore(scores[i], k)
  {
    if scores == [] then [] else [ScaleScore(scores[0], k)] + ScaleScores(scores[1..], k)
  }

  lemma {:induction false} TruthyScoresScale(scores: seq<Option<real>>, k: real)
    requires k > 0.0
    ensures TruthyScores(ScaleScores(scores, k)) == Scale(TruthyScores(scores), k)
  {
    if scores != [] {
      TruthyScoresScale(scores[1..], k);
      assert ScaleScores(scores, k)[1..] == ScaleScores(scores[1..], k);
      if scores[0].Some? {
        assert scores[0].value != 0.0 <==> k * scores[0].value != 0.0;
      }
    }
  }

  lemma WindowScale(scores: seq<Option<real>>, k: real)
    ensures Window(ScaleScores(scores, k)) == ScaleScores(Window(scores), k)
  {
  }

  lemma MeanScale(xs: seq<real>, k: real)
    requires |xs| > 0
    ensures Mean(Scale(xs, k)) == k * Mean(xs)
  {
    SumScale(xs, k);
    var n := |xs| as real;
    assert Mean(Scale(xs, k)) * n == k * Mean(xs) * n;
  }

  /** With the mean scaled by k, the comparisons of the trend rule give the
      same answers. */
  lemma ComparisonsScale(current: real, avg: real, k: real)
    requires k > 0.0
    ensures k * current > (k * avg) * 1.1 <==> current > avg * 1.1
    ensures k * current < (k * avg) * 0.9 <==> current < avg * 0.9
    ensures k * current != 0.0 <==> current != 0.0
  {
    assert (k * avg) * 1.1 == k * (avg * 1.1);
    MultiplyKeepsOrder(current, avg * 1.1, k);
    assert (k * avg) * 0.9 == k * (avg * 0.9);
    MultiplyKeepsOrder(avg * 0.9, current, k);
  }

  /** The trend is a relative judgement: scaling the current and every
      previous score by the same positive factor leaves it unchanged. */
  lemma TrendScaleInvariant(current: real, previous: seq<Option<real>>, k: real)
    requires k > 0.0
    ensures ScoreTrend(Some(k * current), ScaleScores(previous, k)) == ScoreTrend(Some(current), previous)
  {
    WindowScale(previous, k);
    TruthyScoresScale(Window(previous), k);
    ClassifyScale(current, |previous|, TruthyScores(Window(previous)), k);
  }

  lemma ClassifyScale(current: real, weeks: nat, recent: seq<real>, k: real)
    requires k > 0.0
    ensures Classify(Some(k * current), weeks, Scale(recent, k)) == Classify(Some(current), weeks, recent)
  {
    var scaled := Scale(recent, k);
    if weeks >= 2 && |recent| >= 2 {
      var avg := Mean(recent);
      MeanScale(recent, k);
      CompareScale(current, avg, k);
      if current != 0.0 {
        assert k * current != 0.0;
        assert Classify(Some(k * current), weeks, scaled) == Compare(k * current, k * avg);
      } else {
        assert k * current == 0.0;
      }
    }
  }

  lemma CompareScale(current: real, avg: real, k: real)
    requires k > 0.0
    ensures Compare(k * current, k * avg) == Compare(current, avg)
  {
    ComparisonsScale(current, avg, k);
  }

  lemma MultiplyKeepsOrder(x: real, y: real, k: real)
    requires k > 0.0
    ensures k * x > k * y <==> x > y
  {
    if x > y {
      assert k * x - k * y == k * (x - y);
    } else {
      assert k * y - k * x == k * (y - x);
    }
  }

  datatype Summary = Summary(trend: Trend, engagementStatus: Status)

  /** The two derived fields of the response: the trend of the current
      score against the previous weeks, and the stored status, reported as
      `healthy` while none has been stored. */
  function Summarize(current: Row, previous: seq<Row>): (s: Summary)
    ensures current.engagementStatus.None? ==> s.engagementStatus == Healthy
    ensures current.engagementStatus.Some? ==> s.engagementStatus == current.engagementStatus.value
    ensures |previous| < 2 ==> s.trend == Stable
  {
    Summary(ScoreTrend(current.compositeScore, CompositeScores(previous)), current.engagementStatus.GetOr(Healthy))
  }
}

=== FILE: metrics_service.dfy ===
/** The queries and the upsert of `MetricsService`
    (`backend/app/services/metrics_service.py`): the cohort and baseline
    selections over the weekly table, `calculate_baseline_score`, and
    `aggregate_week`, which keeps exactly one row per (user, week). */
module MetricsService {
  import opened Wrappers
  import opened Time
  import opened Records
  import opened Stats
  import opened Store
  import opened WeeklyReduction
  import opened Scoring

  /** The default look-back of `calculate_baseline_score`. */
  const BaselineWeeks: nat := 8

  datatype AggregateError = UserNotFound(user: UserId)

  /** The cohort filter of `get_role_averages`: same week, a user of that
      role who is active, and not the excluded user. The exclusion applies
      only when the id is truthy, so an id of 0 excludes no one. */
  predicate InCohort(r: Row, users: map<UserId, User>, role: string, weekStart: Date, exclude: UserId) {
    && r.weekStart == weekStart
    && r.userId in users
    && users[r.userId].role == role
    && users[r.userId].isActive
    && !(exclude != 0 && r.userId == exclude)
  }

  /** The rows the cohort query returns, in table order. */
  function CohortRows(t: Table, users: map<UserId, User>, role: string, weekStart: Date, exclude: UserId): (c: seq<Row>)
    ensures forall r :: r in c <==> r in t && InCohort(r, users, role, weekStart, exclude)
    ensures |c| <= |t|
  {
    if t == [] then []
    else
      var rest := CohortRows(t[1..], users, role, weekStart, exclude);
      if InCohort(t[0], users, role, weekStart, exclude) then [t[0]] + rest else rest
  }

  /** The baseline query: the user's rows from `cutoff` on (with no upper
      bound on the week) that have a score. */
  function BaselineRows(t: Table, user: UserId, cutoff: Date): (b: seq<Row>)
    ensures forall r :: r in b <==> r in t && r.userId == user && r.weekStart >= cutoff && r.compositeScore.Some?
  {
    if t == [] then []
    else
      var rest := BaselineRows(t[1..], user, cutoff);
      var r := t[0];
      if r.userId == user && r.weekStart >= cutoff && r.compositeScore.Some? then [r] + rest else rest
  }

  /** `[m.composite_score for m in metrics if m.composite_score is not None]`. */
  function Scores(rows: seq<Row>): (s: seq<real>)
    ensures |s| <= |rows|
    ensures |s| == 0 <==> forall i :: 0 <= i < |rows| ==> rows[i].compositeScore.None?
    ensures forall x :: x in s <==> exists i :: 0 <= i < |rows| && rows[i].compositeScore == Some(x)
  {
    if rows == [] then []
    else
      var rest := Scores(rows[1..]);
      assert forall i :: 1 <= i < |rows| ==> rows[i] == rows[1..][i - 1];
      match rows[0].compositeScore
      case Some(x) => [x] + rest
      case None => rest
  }

  /** `calculate_baseline_score` once its query has run: `None` when no row
      has a score, otherwise the arithmetic mean of the scores, which lies
      between the smallest and the largest of them. */
  function BaselineScore(rows: seq<Row>): (b: Option<real>)
    ensures b.None? <==> forall i :: 0 <= i < |rows| ==> rows[i].compositeScore.None?
  {
    if rows == [] then None
    else
      var scores := Scores(rows);
      if scores == [] then None
      else Some(Mean(scores))
  }

  /** The cohort query keeps every matching row as often as the table holds
      it, and nothing else. */
  lemma {:induction false} CohortRowsCounts(t: Table, users: map<UserId, User>, role: string, weekStart: Date, exclude: UserId)
    ensures forall r ::
      multiset(CohortRows(t, users, role, weekStart, exclude))[r] == (if InCohort(r, users, role, weekStart, exclude) then multiset(t)[r] else 0)
  {
    if t != [] {
      CohortRowsCounts(t[1..], users, role, weekStart, exclude);
      assert t == [t[0]] + t[1..];
    }
  }

  /** The baseline query keeps every matching row as often as the table
      holds it, and nothing else. */
  lemma {:induction false} BaselineRowsCounts(t: Table, user: UserId, cutoff: Date)
    ensures forall r ::
      multiset(BaselineRows(t, user, cutoff))[r] == (if r.userId == user && r.weekStart >= cutoff && r.compositeScore.Some? then multiset(t)[r] else 0)
  {
    if t != [] {
      BaselineRowsCounts(t[1..], user, cutoff);
      assert t == [t[0]] + t[1..];
    }
  }

  /** Each score occurs in the list as often as a row carries it. */
  lemma {:induction false} ScoresCounts(rows: seq<Row>)
    ensures forall x :: multiset(Scores(rows))[x] == multiset(CompositeScores(rows))[Some(x)]
  {
    if rows != [] {
      ScoresCounts(rows[1..]);
      assert CompositeScores(rows) == [rows[0].compositeScore] + CompositeScores(rows[1..]);
    }
  }

  /** On rows that all carry a score, as the baseline query returns them,
      the list is the scores in row order. */
  lemma {:induction false} ScoresInOrder(rows: seq<Row>)
    requires forall i :: 0 <= i < |rows| ==> rows[i].compositeScore.Some?
    ensures |Scores(rows)| == |rows|
    ensures forall i :: 0 <= i < |rows| ==> Scores(rows)[i] == rows[i].compositeScore.value
  {
    if rows != [] {
      ScoresInOrder(rows[1..]);
      assert forall i :: 1 <= i < |rows| ==> rows[i] == rows[1..][i - 1];
    }
  }

  /** A present baseline is the arithmetic mean of the selected scores. */
  lemma BaselineIsMean(rows: seq<Row>)
    ensures BaselineScore(rows).Some? ==> IsMeanOf(BaselineScore(rows).value, Scores(rows))
  {
    if BaselineScore(rows).Some? {
      MeanIsMean(Scores(rows));
    }
  }

  /** A baseline lies between the least and the greatest selected score. */
  lemma BaselineWithinScores(rows: seq<Row>)
    requires BaselineScore(rows).Some?
    ensures exists i :: 0 <= i < |rows| && rows[i].compositeScore.Some?
                        && rows[i].compositeScore.value <= BaselineScore(rows).value
    ensures exists j :: 0 <= j < |rows| && rows[j].compositeScore.Some?
                        && BaselineScore(rows).value <= rows[j].compositeScore.value
  {
    var scores := Scores(rows);
    var b := BaselineScore(rows).value;
    assert b == Mean(scores);
    MeanBetweenExtremes(scores);
    var i :| 0 <= i < |scores| && scores[i] <= b;
    assert scores[i] in scores;
    var j :| 0 <= j < |scores| && b <= scores[j];
    assert scores[j] in scores;
  }

  /** The baseline depends on the selected rows only through their scores. */
  lemma BaselineDependsOnScores(a: seq<Row>, b: seq<Row>)
    requires Scores(a) == Scores(b)
    ensures BaselineScore(a) == BaselineScore(b)
  {
  }

  /** The score `aggregate_week` computes for the week's raw counters: the
      cohort is read from the table as it was before the write. */
  function WeekScore(t: Table, users: map<UserId, User>, userId: UserId, weekStart: Date,
                     raw: RawMetrics, stdev: seq<real> -> real): (score: real)
    requires userId in users
    ensures 0.0 <= score <= 100.0
  {
    var role := users[userId].role;
    var stats := RoleAverages(CohortRows(t, users, role, weekStart, userId), stdev);
    CompositeScore(Normalize(raw, stats), role)
  }

  /** `aggregate_week` with the clock reading `now` and `statistics.stdev`
      passed in. Fails when the user does not exist; otherwise writes the
      seven counters, the composite score and the baseline into the
      (user, week) row, creating it if missing, and keeps its flags and
      engagement status. The baseline is computed before the write, so a
      re-run sees the row's previous score. */
  function AggregateWeek(t: Table, users: map<UserId, User>, userId: UserId, weekStart: Date,
                         events: seq<Event>, now: Timestamp, stdev: seq<real> -> real): (r: Result<Table, AggregateError>)
    ensures r.Err? <==> userId !in users
    ensures r.Err? ==> r.error == UserNotFound(userId)
    ensures r.Ok? ==> Lookup(r.value, WeekKey(userId, weekStart)).Some?
    ensures r.Ok? ==>
      var row := Lookup(r.value, WeekKey(userId, weekStart)).value;
      var before := Lookup(t, WeekKey(userId, weekStart));
      && row.raw == WeeklyMetrics(events, userId, weekStart)
      && row.compositeScore == Some(WeekScore(t, users, userId, weekStart, row.raw, stdev))
      && row.baselineScore == BaselineScore(BaselineRows(t, userId, WeeksAgoDate(now, BaselineWeeks)))
      && (before.Some? ==> row.flags == before.value.flags && row.engagementStatus == before.value.engagementStatus)
      && (before.None? ==> row.flags == None && row.engagementStatus == None)
    ensures r.Ok? ==> forall k :: k != WeekKey(userId, weekStart) ==> Lookup(r.value, k) == Lookup(t, k)
    ensures r.Ok? ==> |r.value| == if Lookup(t, WeekKey(userId, weekStart)).Some? then |t| else |t| + 1
    ensures r.Ok? && Unique(t) ==> Unique(r.value)
  {
    if userId !in users then Err(UserNotFound(userId))
    else
      var raw := WeeklyMetrics(events, userId, weekStart);
      var score := WeekScore(t, users, userId, weekStart, raw, stdev);
      var baseline := BaselineScore(BaselineRows(t, userId, WeeksAgoDate(now, BaselineWeeks)));
      var existing := Lookup(t, WeekKey(userId, weekStart)).GetOr(FreshRow(userId, weekStart));
      var row := existing.(raw := raw, compositeScore := Some(score), baselineScore := baseline);
      UpsertLookup(t, row);
      UpsertKeepsUnique(t, row);
      Ok(Upsert(t, row))
  }

  /** Re-writing a user's own row does not change the cohort that user is
      compared against (the row is excluded), provided the id is truthy. */
  lemma {:induction false} CohortIgnoresOwnRow(t: Table, users: map<UserId, User>, role: string, weekStart: Date, r: Row)
    requires r.userId != 0
    ensures CohortRows(Upsert(t, r), users, role, weekStart, r.userId) == CohortRows(t, users, role, weekStart, r.userId)
  {
    if t == [] {
      assert Upsert(t, r) == [r];
      assert [r][1..] == [];
    } else if t[0].Key() == r.Key() {
      assert Upsert(t, r) == [r] + t[1..];
      assert ([r] + t[1..])[1..] == t[1..];
    } else {
      CohortIgnoresOwnRow(t[1..], users, role, weekStart, r);
      assert (Upsert(t, r))[1..] == Upsert(t[1..], r);
    }
  }

  /** Re-writing a row with the score it already holds leaves the scores the
      baseline query selects unchanged. */
  lemma {:induction false} BaselineScoresIgnoreRewrite(t: Table, r: Row, user: UserId, cutoff: Date)
    requires Lookup(t, r.Key()).Some?
    requires Lookup(t, r.Key()).value.compositeScore == r.compositeScore
    ensures Scores(BaselineRows(Upsert(t, r), user, cutoff)) == Scores(BaselineRows(t, user, cutoff))
  {
    if t[0].Key() == r.Key() {
      assert Upsert(t, r) == [r] + t[1..];
      assert ([r] + t[1..])[1..] == t[1..];
      var rest := BaselineRows(t[1..], user, cutoff);
      if r.userId == user && r.weekStart >= cutoff && r.compositeScore.Some? {
        assert ([r] + rest)[1..] == rest;
        assert ([t[0]] + rest)[1..] == rest;
      }
    } else {
      BaselineScoresIgnoreRewrite(t[1..], r, user, cutoff);
      assert (Upsert(t, r))[1..] == Upsert(t[1..], r);
      var rest := BaselineRows(t[1..], user, cutoff);
      var rest' := BaselineRows(Upsert(t[1..], r), user, cutoff);
      if t[0].userId == user && t[0].weekStart >= cutoff && t[0].compositeScore.Some? {
        assert ([t[0]] + rest)[1..] == rest;
        assert ([t[0]] + rest')[1..] == rest';
      }
    }
  }

  /** Running `aggregate_week` again on unchanged events keeps the counters,
      the composite score, the flags and the status of the row. */
  lemma AggregateRerunKeepsScore(t: Table, users: map<UserId, User>, userId: UserId, weekStart: Date,
                                 events: seq<Event>, now: Timestamp, stdev: seq<real> -> real)
    requires userId in users && userId != 0
    ensures
      var key := WeekKey(userId, weekStart);
      var t1 := AggregateWeek(t, users, userId, weekStart, events, now, stdev).value;
      var t2 := AggregateWeek(t1, users, userId, weekStart, events, now, stdev).value;
      var row1 := Lookup(t1, key).value;
      var row2 := Lookup(t2, key).value;
      && row2.raw == row1.raw
      && row2.compositeScore == row1.compositeScore
      && row2.flags == row1.flags
      && row2.engagementStatus == row1.engagementStatus
  {
    var key := WeekKey(userId, weekStart);
    var t1 := AggregateWeek(t, users, userId, weekStart, events, now, stdev).value;
    var row1 := Lookup(t1, key).value;
    assert t1 == Upsert(t, row1);
    CohortIgnoresOwnRow(t, users, users[userId].role, weekStart, row1);
  }

  /** The second run is a fixed point: a third run changes nothing. */
  lemma AggregateSettlesAfterSecondRun(t: Table, users: map<UserId, User>, userId: UserId, weekStart: Date,
                                       events: seq<Event>, now: Timestamp, stdev: seq<real> -> real)
    requires userId in users && userId != 0
    ensures
      var t1 := AggregateWeek(t, users, userId, weekStart, events, now, stdev).value;
      var t2 := AggregateWeek(t1, users, userId, weekStart, events, now, stdev).value;
      AggregateWeek(t2, users, userId, weekStart, events, now, stdev) == Ok(t2)
  {
    var key := WeekKey(userId, weekStart);
    var role := users[userId].role;
    var cutoff := WeeksAgoDate(now, BaselineWeeks);
    var t1 := AggregateWeek(t, users, userId, weekStart, events, now, stdev).value;
    var row1 := Lookup(t1, key).value;
    assert t1 == Upsert(t, row1);
    CohortIgnoresOwnRow(t, users, role, weekStart, row1);
    var t2 := AggregateWeek(t1, users, userId, weekStart, events, now, stdev).value;
    var row2 := Lookup(t2, key).value;
    assert t2 == Upsert(t1, row2);
    CohortIgnoresOwnRow(t1, users, role, weekStart, row2);
    BaselineScoresIgnoreRewrite(t1, row2, userId, cutoff);
    BaselineDependsOnScores(BaselineRows(t2, userId, cutoff), BaselineRows(t1, userId, cutoff));
    var t3 := AggregateWeek(t2, users, userId, weekStart, events, now, stdev).value;
    var row3 := Lookup(t3, key).value;
    assert row3 == row2;
    assert t3 == Upsert(t2, row2);
    UpsertSameRow(t2, row2);
  }

  /** Alone in an empty table, a week without activity scores 50. */
  lemma LoneUserScoresFifty(stdev: seq<real> -> real)
    ensures WeekScore([], map[1 := User("backend", true)], 1, 0, ZeroMetrics, stdev) == 50.0
  {
    var users := map[1 := User("backend", true)];
    assert CohortRows([], users, "backend", 0, 1) == [];
    EmptyCohortKeepsRawValues(ZeroMetrics);
    NeutralScoresFifty("backend");
  }

  /** Yet the first re-run is not a no-op: on an empty table a first run
      stores no baseline, and the second run, whose baseline query now sees
      the row the first run wrote, stores that row's score of 50. */
  lemma AggregateRerunChangesBaseline(stdev: seq<real> -> real)
    ensures
      var users := map[1 := User("backend", true)];
      var key := WeekKey(1, 0);
      var t1 := AggregateWeek([], users, 1, 0, [], 0, stdev).value;
      var t2 := AggregateWeek(t1, users, 1, 0, [], 0, stdev).value;
      && Lookup(t1, key).value.baselineScore == None
      && Lookup(t2, key).value.baselineScore == Some(50.0)
  {
    var users := map[1 := User("backend", true)];
    var key := WeekKey(1, 0);
    var t1 := AggregateWeek([], users, 1, 0, [], 0, stdev).value;
    var row1 := Lookup(t1, key).value;
    assert row1.raw == ZeroMetrics;
    LoneUserScoresFifty(stdev);
    assert row1.compositeScore == Some(50.0);
    assert t1 == [row1];
    LoneRowBaseline(row1);
  }

  /** A table holding one scored row of user 1 in week 0 gives that user,
      at time 0, the row's score as baseline. */
  lemma LoneRowBaseline(row: Row)
    requires row.userId == 1 && row.weekStart == 0 && row.compositeScore == Some(50.0)
    ensures BaselineScore(BaselineRows([row], 1, WeeksAgoDate(0, BaselineWeeks))) == Some(50.0)
  {
    assert DateOf(0) == 0;
    assert WeeksAgoDate(0, BaselineWeeks) == -56;
    var rows := BaselineRows([row], 1, -56);
    assert [row][1..] == [];
    assert BaselineRows([], 1, -56) == [];
    assert rows == [row] + BaselineRows([row][1..], 1, -56);
    assert rows == [row];
    assert Scores(rows) == [50.0];
    assert Mean([50.0]) == 50.0;
  }
}

=== FILE: records.dfy ===
/** The records the core reads and writes: users, activity events and the
    weekly metrics row (`backend/app/models/`). Free-form JSON columns are
    replaced by typed structures holding only what the core inspects. */
module Records {
  import opened Wrappers
  import opened Time

  type UserId = int

  /** The two `users` columns the core consults (the map key is `users.id`). */
  datatype User = User(role: string, isActive: bool)

  /** `event_metadata`: the numeric values the core reads by key. A SQL NULL
      and an empty JSON object behave alike (both are falsy). */
  type Metadata = Option<map<string, real>>

  /** One row of `activity_events`. `source` and `eventType` stay strings:
      the reduction compares them with literals and ignores everything else. */
  datatype Event = Event(
    userId: UserId,
    source: string,
    eventType: string,
    occurredAt: Timestamp,
    metadata: Metadata)

  /** The seven metric columns, in the order of the weight tables. */
  datatype Metric = Tickets | StoryPoints | PrsAuthored | PrsReviewed | Commits | Docs | Meetings

  /** One real value per metric: cohort averages, cohort deviations,
      normalised metrics and weight sets all have this shape. */
  datatype PerMetric = PerMetric(
    tickets: real,
    storyPoints: real,
    prsAuthored: real,
    prsReviewed: real,
    commits: real,
    docs: real,
    meetings: real)
  {
    function At(m: Metric): real {
      match m
      case Tickets => tickets
      case StoryPoints => storyPoints
      case PrsAuthored => prsAuthored
      case PrsReviewed => prsReviewed
      case Commits => commits
      case Docs => docs
      case Meetings => meetings
    }

    function Sum(): real {
      tickets + storyPoints + prsAuthored + prsReviewed + commits + docs + meetings
    }
  }

  /** Builds a `PerMetric` from its value at each metric. */
  function Tabulate(f: Metric -> real): (v: PerMetric)
    ensures forall m :: v.At(m) == f(m)
  {
    PerMetric(f(Tickets), f(StoryPoints), f(PrsAuthored), f(PrsReviewed), f(Commits), f(Docs), f(Meetings))
  }

  /** The raw counters of a weekly row (integer and float columns). */
  datatype RawMetrics = RawMetrics(
    ticketsCompleted: int,
    storyPoints: real,
    prsAuthored: int,
    prsReviewed: int,
    commits: int,
    docsAuthored: int,
    meetingHours: real)
  {
    /** The counters as reals, keyed by metric. */
    function Values(): PerMetric {
      PerMetric(ticketsCompleted as real, storyPoints, prsAuthored as real, prsReviewed as real,
                commits as real, docsAuthored as real, meetingHours)
    }
  }

  const ZeroMetrics: RawMetrics := RawMetrics(0, 0.0, 0, 0, 0, 0, 0.0)

  /** A score in Python's truthiness: present (not NULL) and non-zero. */
  predicate Truthy(score: Option<real>) {
    score.Some? && score.value != 0.0
  }

  datatype Status = Healthy | Watch | NeedsReview

  /** A date-valued flag: either it yields a date (an ISO string that
      `fromisoformat` accepts, or a date object) or it does not, in which
      case the comparison that uses it raises and the clause is skipped. */
  datatype FlagDate = ParsedDate(date: Date) | Unparsable

  /** The `on_call_week` flag, compared by string equality with
      `str(week_start)`. The ISO rendering of a date is injective, so the
      value is either the rendering of exactly one date or of none. */
  datatype WeekText = IsoText(date: Date) | OtherText

  /** The exception markers of the `flags` JSON column. Truthiness of the
      boolean markers is kept as `bool`; a missing or falsy value is `None`.
      The override markers are not read by the core and are not modelled. */
  datatype Flags = Flags(
    pto: bool,
    ptoStart: Option<FlagDate>,
    ptoEnd: Option<FlagDate>,
    onboarding: bool,
    onboardingUntil: Option<FlagDate>,
    roleChange: bool,
    roleChangeDate: Option<FlagDate>,
    onCall: bool,
    onCallWeek: Option<WeekText>)

  const NoFlags: Flags := Flags(false, None, None, false, None, false, None, false, None)

  /** The key of the unique index on `weekly_user_metrics`. */
  datatype WeekKey = WeekKey(user: UserId, week: Date)

  /** One row of `weekly_user_metrics`. */
  datatype Row = Row(
    userId: UserId,
    weekStart: Date,
    raw: RawMetrics,
    compositeScore: Option<real>,
    baselineScore: Option<real>,
    engagementStatus: Option<Status>,
    flags: Option<Flags>)
  {
    function Key(): WeekKey {
      WeekKey(userId, weekStart)
    }
  }

  /** The `composite_score` column of a list of rows, in order. */
  function CompositeScores(rows: seq<Row>): (scores: seq<Option<real>>)
    ensures |scores| == |rows|
    ensures forall i :: 0 <= i < |rows| ==> scores[i] == rows[i].compositeScore
  {
    seq(|rows|, i requires 0 <= i < |rows| => rows[i].compositeScore)
  }

  /** A row as first inserted: the key only, every optional column NULL. */
  function FreshRow(user: UserId, week: Date): (r: Row)
    ensures r.Key() == WeekKey(user, week)
    ensures r.compositeScore == None && r.baselineScore == None
    ensures r.engagementStatus == None && r.flags == None
  {
    Row(user, week, ZeroMetrics, None, None, None, None)
  }
}

=== FILE: scoring.dfy ===
/** Cohort statistics, normalisation and the composite score of
    `MetricsService` (`backend/app/services/metrics_service.py`):
    `get_role_averages` over the cohort rows it is given,
    `normalize_metrics` and `calculate_composite_score`. */
module Scoring {
  import opened Records
  import opened Config
  import opened Stats

  /** The fourteen values `get_role_averages` returns: an average and a
      floored standard deviation per metric. */
  datatype CohortStats = CohortStats(avg: PerMetric, std: PerMetric)

  /** The statistics of an empty cohort: average 0 and deviation 1. */
  const EmptyCohortStats: CohortStats :=
    CohortStats(PerMetric(0.0, 0.0, 0.0, 0.0, 0.0, 0.0, 0.0), PerMetric(1.0, 1.0, 1.0, 1.0, 1.0, 1.0, 1.0))

  /** Floor below which a deviation is raised, to avoid unstable division. */
  const StdFloor: real := 0.1

  /** The values of one metric column over the cohort rows. */
  function Column(cohort: seq<Row>, m: Metric): (xs: seq<real>)
    ensures |xs| == |cohort|
    ensures forall i :: 0 <= i < |cohort| ==> xs[i] == cohort[i].raw.Values().At(m)
  {
    seq(|cohort|, i requires 0 <= i < |cohort| => cohort[i].raw.Values().At(m))
  }

  function Min(a: real, b: real): real {
    if a <= b then a else b
  }

  function Max(a: real, b: real): real {
    if a >= b then a else b
  }

  /** `get_role_averages` once the cohort query has run. `stdev` stands for
      `statistics.stdev` (a square root, not modelled); it is consulted only
      for cohorts of two or more rows. */
  function RoleAverages(cohort: seq<Row>, stdev: seq<real> -> real): (s: CohortStats)
    ensures |cohort| == 0 ==> s == EmptyCohortStats
    ensures |cohort| == 1 ==> forall m :: s.std.At(m) == 1.0
    ensures forall m :: s.std.At(m) >= StdFloor
    ensures |cohort| > 0 ==> forall m :: s.avg.At(m) * (|cohort| as real) == Sum(Column(cohort, m))
    ensures |cohort| > 1 ==> forall m :: s.std.At(m) == Max(stdev(Column(cohort, m)), StdFloor)
  {
    if |cohort| == 0 then EmptyCohortStats
    else
      var n := |cohort|;
      CohortStats(
        Tabulate(m => Mean(Column(cohort, m))),
        Tabulate(m => Max(if n > 1 then stdev(Column(cohort, m)) else 1.0, StdFloor)))
  }

  /** Each cohort average is bracketed by the cohort's own values. */
  lemma AverageWithinCohort(cohort: seq<Row>, stdev: seq<real> -> real, m: Metric)
    requires |cohort| > 0
    ensures exists i :: 0 <= i < |cohort| && cohort[i].raw.Values().At(m) <= RoleAverages(cohort, stdev).avg.At(m)
    ensures exists j :: 0 <= j < |cohort| && RoleAverages(cohort, stdev).avg.At(m) <= cohort[j].raw.Values().At(m)
  {
    var xs := Column(cohort, m);
    MeanBetweenExtremes(xs);
    var i :| 0 <= i < |xs| && xs[i] <= Mean(xs);
    var j :| 0 <= j < |xs| && Mean(xs) <= xs[j];
    assert cohort[i].raw.Values().At(m) <= RoleAverages(cohort, stdev).avg.At(m);
    assert RoleAverages(cohort, stdev).avg.At(m) <= cohort[j].raw.Values().At(m);
  }

  /** A cohort of two or more rows that all agree on a metric has zero
      variance there; with `stdev` the true square root of the sample
      variance, that metric's deviation is the floor 0.1. */
  lemma UniformColumnGetsFloor(cohort: seq<Row>, stdev: seq<real> -> real, m: Metric)
    requires |cohort| > 1
    requires forall i :: 0 <= i < |cohort| ==> cohort[i].raw.Values().At(m) == cohort[0].raw.Values().At(m)
    requires stdev(Column(cohort, m)) >= 0.0
    requires stdev(Column(cohort, m)) * stdev(Column(cohort, m)) == SampleVariance(Column(cohort, m))
    ensures RoleAverages(cohort, stdev).std.At(m) == StdFloor
  {
    ConstantHasNoVariance(Column(cohort, m));
  }

  /** `normalize_metrics`: the z-score `(value - avg) / std` of each metric,
      or 0 where the deviation is not positive. */
  function Normalize(raw: RawMetrics, stats: CohortStats): PerMetric {
    Tabulate(m => ZScore(raw.Values().At(m), stats.avg.At(m), stats.std.At(m)))
  }

  function ZScore(value: real, avg: real, std: real): real {
    if std > 0.0 then (value - avg) / std else 0.0
  }

  /** Normalisation is undone by scaling back by the deviation and adding
      the average; a metric without positive deviation normalises to 0. */
  lemma NormalizeInverts(raw: RawMetrics, stats: CohortStats, m: Metric)
    ensures stats.std.At(m) > 0.0 ==>
      stats.avg.At(m) + Normalize(raw, stats).At(m) * stats.std.At(m) == raw.Values().At(m)
    ensures stats.std.At(m) <= 0.0 ==> Normalize(raw, stats).At(m) == 0.0
  {
    var z := ZScore(raw.Values().At(m), stats.avg.At(m), stats.std.At(m));
    assert Normalize(raw, stats).At(m) == z;
    ZScoreInverts(raw.Values().At(m), stats.avg.At(m), stats.std.At(m));
  }

  lemma ZScoreInverts(value: real, avg: real, std: real)
    ensures std > 0.0 ==> avg + ZScore(value, avg, std) * std == value
    ensures std <= 0.0 ==> ZScore(value, avg, std) == 0.0
  {
  }

  /** With the empty-cohort statistics (average 0, deviation 1) the
      normalised metrics are the raw counters themselves, not 0. */
  lemma EmptyCohortKeepsRawValues(raw: RawMetrics)
    ensures Normalize(raw, EmptyCohortStats) == raw.Values()
  {
    var n := Normalize(raw, EmptyCohortStats);
    assert n.At(Tickets) == raw.Values().At(Tickets);
    assert n.At(StoryPoints) == raw.Values().At(StoryPoints);
    assert n.At(PrsAuthored) == raw.Values().At(PrsAuthored);
    assert n.At(PrsReviewed) == raw.Values().At(PrsReviewed);
    assert n.At(Commits) == raw.Values().At(Commits);
    assert n.At(Docs) == raw.Values().At(Docs);
    assert n.At(Meetings) == raw.Values().At(Meetings);
  }

  /** The weighted blend before clamping: each metric contributes
      `(50 + 10 * n) * w`, summed in the order of the source. */
  function Blend(n: PerMetric, w: PerMetric): real {
    var score := 0.0;
    var score := score + (50.0 + n.tickets * 10.0) * w.tickets;
    var score := score + (50.0 + n.storyPoints * 10.0) * w.storyPoints;
    var score := score + (50.0 + n.prsAuthored * 10.0) * w.prsAuthored;
    var score := score + (50.0 + n.prsReviewed * 10.0) * w.prsReviewed;
    var score := score + (50.0 + n.commits * 10.0) * w.commits;
    var score := score + (50.0 + n.docs * 10.0) * w.docs;
    score + (50.0 + n.meetings * 10.0) * w.meetings
  }

  /** `max(0.0, min(100.0, score))`. */
  function Clamp(x: real): (r: real)
    ensures 0.0 <= r <= 100.0
    ensures 0.0 <= x <= 100.0 ==> r == x
    ensures x < 0.0 ==> r == 0.0
    ensures x > 100.0 ==> r == 100.0
  {
    Max(0.0, Min(100.0, x))
  }

  /** `calculate_composite_score`: the clamped blend with the role's weights
      (the backend weights for a role without an entry). */
  function CompositeScore(n: PerMetric, role: string): (score: real)
    ensures 0.0 <= score <= 100.0
  {
    Clamp(Blend(n, WeightsFor(role)))
  }

  /** The weighted dot product of normalised metrics and weights. */
  function Dot(n: PerMetric, w: PerMetric): real {
    n.tickets * w.tickets + n.storyPoints * w.storyPoints + n.prsAuthored * w.prsAuthored
    + n.prsReviewed * w.prsReviewed + n.commits * w.commits + n.docs * w.docs + n.meetings * w.meetings
  }

  /** Because every weight set sums to 1, the blend is 50 plus ten times the
      weighted average of the normalised metrics: 50 is the score of an
      average peer and one deviation is worth ten points. */
  lemma BlendIsAffine(n: PerMetric, role: string)
    ensures Blend(n, WeightsFor(role)) == 50.0 + 10.0 * Dot(n, WeightsFor(role))
  {
    var w := WeightsFor(role);
    assert w.Sum() == 1.0;
  }

  /** The composite score is 50 plus ten times the role-weighted average of
      the normalised metrics, cut to the range 0..100. */
  lemma CompositeScoreIsClampedAffine(n: PerMetric, role: string)
    ensures CompositeScore(n, role) == Clamp(50.0 + 10.0 * Dot(n, WeightsFor(role)))
  {
    BlendIsAffine(n, role);
  }

  /** All-zero normalised metrics score exactly 50, whatever the role. */
  lemma NeutralScoresFifty(role: string)
    ensures CompositeScore(PerMetric(0.0, 0.0, 0.0, 0.0, 0.0, 0.0, 0.0), role) == 50.0
  {
    BlendIsAffine(PerMetric(0.0, 0.0, 0.0, 0.0, 0.0, 0.0, 0.0), role);
  }

  /** Raising any normalised metric never lowers the score: the weights are
      non-negative and the clamp is monotone. */
  lemma CompositeMonotone(a: PerMetric, b: PerMetric, role: string)
    requires forall m :: a.At(m) <= b.At(m)
    ensures CompositeScore(a, role) <= CompositeScore(b, role)
  {
    var w := WeightsFor(role);
    assert a.At(Tickets) <= b.At(Tickets) && a.At(StoryPoints) <= b.At(StoryPoints);
    assert a.At(PrsAuthored) <= b.At(PrsAuthored) && a.At(PrsReviewed) <= b.At(PrsReviewed);
    assert a.At(Commits) <= b.At(Commits) && a.At(Docs) <= b.At(Docs) && a.At(Meetings) <= b.At(Meetings);
    assert w.At(Tickets) >= 0.0 && w.At(StoryPoints) >= 0.0 && w.At(PrsAuthored) >= 0.0;
    assert w.At(PrsReviewed) >= 0.0 && w.At(Commits) >= 0.0 && w.At(Docs) >= 0.0 && w.At(Meetings) >= 0.0;
    BlendIsAffine(a, role);
    BlendIsAffine(b, role);
    DotMonotone(a, b, w);
  }

  lemma DotMonotone(a: PerMetric, b: PerMetric, w: PerMetric)
    requires forall m :: a.At(m) <= b.At(m)
    requires forall m :: w.At(m) >= 0.0
    ensures Dot(a, w) <= Dot(b, w)
  {
    assert a.At(Tickets) <= b.At(Tickets) && w.At(Tickets) >= 0.0;
    assert a.At(StoryPoints) <= b.At(StoryPoints) && w.At(StoryPoints) >= 0.0;
    assert a.At(PrsAuthored) <= b.At(PrsAuthored) && w.At(PrsAuthored) >= 0.0;
    assert a.At(PrsReviewed) <= b.At(PrsReviewed) && w.At(PrsReviewed) >= 0.0;
    assert a.At(Commits) <= b.At(Commits) && w.At(Commits) >= 0.0;
    assert a.At(Docs) <= b.At(Docs) && w.At(Docs) >= 0.0;
    assert a.At(Meetings) <= b.At(Meetings) && w.At(Meetings) >= 0.0;
    Scaled(a.tickets, b.tickets, w.tickets);
    Scaled(a.storyPoints, b.storyPoints, w.storyPoints);
    Scaled(a.prsAuthored, b.prsAuthored, w.prsAuthored);
    Scaled(a.prsReviewed, b.prsReviewed, w.prsReviewed);
    Scaled(a.commits, b.commits, w.commits);
    Scaled(a.docs, b.docs, w.docs);
    Scaled(a.meetings, b.meetings, w.meetings);
  }

  /** `x <= y` survives scaling by a non-negative weight. */
  lemma Scaled(x: real, y: real, k: real)
    requires x <= y && k >= 0.0
    ensures x * k <= y * k
  {
    var gap := (y - x) * k;
    assert gap >= 0.0;
    assert y * k == x * k + gap;
  }

  /** A role with no weight entry is scored exactly like `backend`. */
  lemma UnknownRoleScoredAsBackend(n: PerMetric, role: string)
    requires role !in WeightedRoles
    ensures CompositeScore(n, role) == CompositeScore(n, "backend")
  {
  }
}

=== FILE: slack_detection.dfy ===
/** `EngagementDetectionService` (`backend/app/services/slack_detection.py`):
    the exception check, the first-match-wins classifier, the two history
    queries and `update_engagement_status`. */
module SlackDetection {
  import opened Wrappers
  import opened Time
  import opened Records
  import opened Config
  import opened Store

  /** `timedelta(weeks=2)` of grace after a role change, in days. */
  const RoleChangeGraceDays: int := 14
  /** The previous week counts as healthy at 90% of the baseline. */
  const HealthyPreviousRatio: real := 0.9
  /** Rule 3 sums reviews over at most this many recent rows. */
  const CollaborationWindow: nat := 4
  /** Rule 4 inspects at most this many recent rows. */
  const InactivityWindow: nat := 2

  /** The PTO clause: `pto` set, both bounds present, and the week inside
      them; a bound that does not yield a date makes the clause false. */
  predicate PtoCovers(f: Flags, week: Date) {
    f.pto && f.ptoStart.Some? && f.ptoEnd.Some?
    && f.ptoStart.value.ParsedDate? && f.ptoEnd.value.ParsedDate?
    && f.ptoStart.value.date <= week <= f.ptoEnd.value.date
  }

  /** `check_exceptions`: the four clauses tried in the source's order. */
  function CheckExceptions(flags: Option<Flags>, week: Date): (covered: bool)
    ensures flags.None? ==> !covered
    ensures covered <==> (flags.Some? && (
      || PtoCovers(flags.value, week)
      || (flags.value.onboarding && flags.value.onboardingUntil.Some?
          && flags.value.onboardingUntil.value.ParsedDate?
          && week <= flags.value.onboardingUntil.value.date)
      || (flags.value.roleChange && flags.value.roleChangeDate.Some?
          && flags.value.roleChangeDate.value.ParsedDate?
          && week <= flags.value.roleChangeDate.value.date + 14)
      || (flags.value.onCall && flags.value.onCallWeek == Some(IsoText(week)))))
  {
    match flags
    case None => false
    case Some(f) =>
      if f.pto && f.ptoStart.Some? && f.ptoEnd.Some? && PtoCovers(f, week) then true
      else if f.onboarding && f.onboardingUntil.Some? &&
              (match f.onboardingUntil.value
               case ParsedDate(until) => week <= until
               case Unparsable => false) then true
      else if f.roleChange && f.roleChangeDate.Some? &&
              (match f.roleChangeDate.value
               case ParsedDate(changed) => week <= changed + RoleChangeGraceDays
               case Unparsable => false) then true
      else if f.onCall && f.onCallWeek.Some? && f.onCallWeek.value == IsoText(week) then true
      else false
  }

  /** PTO alone covers exactly the closed interval between its bounds. */
  lemma PtoCoversClosedInterval(start: Date, end: Date, week: Date)
    ensures CheckExceptions(Some(NoFlags.(pto := true, ptoStart := Some(ParsedDate(start)),
                                          ptoEnd := Some(ParsedDate(end)))), week)
            <==> start <= week <= end
  {
  }

  /** The role-change grace has no lower bound: every week up to two weeks
      after the change is covered, including weeks long before it. */
  lemma RoleChangeHasNoLowerBound(changed: Date, week: Date)
    ensures CheckExceptions(Some(NoFlags.(roleChange := true, roleChangeDate := Some(ParsedDate(changed)))), week)
            <==> week <= changed + RoleChangeGraceDays
  {
  }

  /** On-call covers the one week whose ISO date the flag holds. */
  lemma OnCallCoversOneWeek(onCallWeek: Date, week: Date)
    ensures CheckExceptions(Some(NoFlags.(onCall := true, onCallWeek := Some(IsoText(onCallWeek)))), week)
            <==> week == onCallWeek
  {
  }

  /** A date flag that does not parse never grants an exception. */
  lemma UnparsableDatesNeverCover(week: Date)
    ensures !CheckExceptions(Some(NoFlags.(pto := true, ptoStart := Some(Unparsable), ptoEnd := Some(Unparsable),
                                           onboarding := true, onboardingUntil := Some(Unparsable),
                                           roleChange := true, roleChangeDate := Some(Unparsable))), week)
  {
  }

  /** A history row counted by the sustained rules: both scores present, the
      score below 70% of the row's own baseline, and no exception on the
      row's own flags for its own week. */
  predicate BelowThreshold(r: Row) {
    && r.compositeScore.Some? && r.baselineScore.Some?
    && r.compositeScore.value < r.baselineScore.value * (1.0 - LowEngagementThreshold)
    && !CheckExceptions(r.flags, r.weekStart)
  }

  /** A history row counted by the inactivity rule. */
  predicate InactiveWeek(r: Row) {
    && r.raw.ticketsCompleted == 0 && r.raw.prsAuthored == 0 && r.raw.commits == 0
    && !CheckExceptions(r.flags, r.weekStart)
  }

  function CountIf(rows: seq<Row>, p: Row -> bool): (n: nat)
    ensures n <= |rows|
  {
    if rows == [] then 0 else (if p(rows[0]) then 1 else 0) + CountIf(rows[1..], p)
  }

  function ReviewSum(rows: seq<Row>): int {
    if rows == [] then 0 else rows[0].raw.prsReviewed + ReviewSum(rows[1..])
  }

  /** Python's `rows[:n]`. */
  function Take(rows: seq<Row>, n: nat): (p: seq<Row>)
    ensures |p| == if |rows| < n then |rows| else n
    ensures p <= rows
  {
    if |rows| < n then rows else rows[..n]
  }

  /** Rule 2: a fall below 60% of the baseline right after a week at 90% of
      it or more. */
  predicate SuddenDrop(composite: real, baseline: real, previous: Option<Row>) {
    && composite < baseline * (1.0 - SuddenDropThreshold)
    && previous.Some? && Truthy(previous.value.compositeScore)
    && previous.value.compositeScore.value >= baseline * HealthyPreviousRatio
  }

  /** Rule 3: PRs authored but none reviewed, over a pattern of weeks. */
  predicate LowCollaboration(row: Row, recent: seq<Row>) {
    && row.raw.prsReviewed == 0 && row.raw.prsAuthored > 0
    && ReviewSum(Take(recent, CollaborationWindow)) == 0 && |recent| >= 2
  }

  /** Rule 4: nothing done this week, nor in the two newest history rows. */
  predicate SustainedInactivity(row: Row, recent: seq<Row>) {
    && row.raw.ticketsCompleted == 0 && row.raw.prsAuthored == 0
    && row.raw.commits == 0 && row.raw.docsAuthored == 0
    && CountIf(Take(recent, InactivityWindow), InactiveWeek) >= 2
  }

  /** `detect_engagement_status` with its two queries' results passed in:
      `recent` is the newest-first history (`get_recent_weeks_metrics` with
      limit `NEEDS_REVIEW_WEEKS`) and `previous` the row of the week before.
      The first rule that matches decides. */
  function DetectEngagementStatus(row: Row, weekStart: Date, recent: seq<Row>, previous: Option<Row>): (s: Status)
    ensures CheckExceptions(row.flags, weekStart) ==> s == Healthy
    ensures row.baselineScore.None? || row.compositeScore.None? ==> s == Healthy
    ensures s == NeedsReview ==> |recent| >= NeedsReviewWeeks && CountIf(recent, BelowThreshold) >= NeedsReviewWeeks
    ensures s == Watch && |recent| < 2 ==>
              row.compositeScore.Some? && row.baselineScore.Some?
              && SuddenDrop(row.compositeScore.value, row.baselineScore.value, previous)
  {
    if CheckExceptions(row.flags, weekStart) then Healthy
    else if row.baselineScore.None? || row.compositeScore.None? then Healthy
    else
      var baseline := row.baselineScore.value;
      var composite := row.compositeScore.value;
      if |recent| >= NeedsReviewWeeks && CountIf(recent, BelowThreshold) >= NeedsReviewWeeks then NeedsReview
      else if |recent| >= WatchWeeks && CountIf(recent, BelowThreshold) >= WatchWeeks then Watch
      else if SuddenDrop(composite, baseline, previous) then Watch
      else if LowCollaboration(row, recent) then Watch
      else if SustainedInactivity(row, recent) then Watch
      else Healthy
  }

  /** The early exits consult no history: an exception on the row or a
      missing score gives the same status whatever the history holds. */
  lemma EarlyExitIgnoresHistory(row: Row, weekStart: Date, recent: seq<Row>, previous: Option<Row>)
    requires CheckExceptions(row.flags, weekStart) || row.baselineScore.None? || row.compositeScore.None?
    ensures DetectEngagementStatus(row, weekStart, recent, previous) == DetectEngagementStatus(row, weekStart, [], None)
  {
  }

  /** At least three counted rows is the same as three distinct rows that
      satisfy the predicate. */
  lemma ThreeWitnesses(rows: seq<Row>, p: Row -> bool)
    ensures CountIf(rows, p) >= 3 <==>
            exists i, j, k :: 0 <= i < j < k < |rows| && p(rows[i]) && p(rows[j]) && p(rows[k])
  {
    if CountIf(rows, p) >= 3 {
      var i, j, k := PickThree(rows, p);
    }
    if exists i, j, k :: 0 <= i < j < k < |rows| && p(rows[i]) && p(rows[j]) && p(rows[k]) {
      var i, j, k :| 0 <= i < j < k < |rows| && p(rows[i]) && p(rows[j]) && p(rows[k]);
      CountThree(rows, p, i, j, k);
    }
  }

  /** At least two counted rows is the same as two distinct such rows. */
  lemma TwoWitnesses(rows: seq<Row>, p: Row -> bool)
    ensures CountIf(rows, p) >= 2 <==> exists j, k :: 0 <= j < k < |rows| && p(rows[j]) && p(rows[k])
  {
    if CountIf(rows, p) >= 2 {
      var j, k := PickTwo(rows, p);
    }
    if exists j, k :: 0 <= j < k < |rows| && p(rows[j]) && p(rows[k]) {
      var j, k :| 0 <= j < k < |rows| && p(rows[j]) && p(rows[k]);
      CountTwo(rows, p, j, k);
    }
  }

  lemma {:induction false} PickOne(rows: seq<Row>, p: Row -> bool) returns (k: int)
    requires CountIf(rows, p) >= 1
    ensures 0 <= k < |rows| && p(rows[k])
  {
    if p(rows[0]) {
      k := 0;
    } else {
      var k' := PickOne(rows[1..], p);
      k := k' + 1;
    }
  }

  lemma {:induction false} PickTwo(rows: seq<Row>, p: Row -> bool) returns (j: int, k: int)
    requires CountIf(rows, p) >= 2
    ensures 0 <= j < k < |rows| && p(rows[j]) && p(rows[k])
  {
    if p(rows[0]) {
      var k' := PickOne(rows[1..], p);
      j, k := 0, k' + 1;
    } else {
      var j', k' := PickTwo(rows[1..], p);
      j, k := j' + 1, k' + 1;
    }
  }

  lemma {:induction false} PickThree(rows: seq<Row>, p: Row -> bool) returns (i: int, j: int, k: int)
    requires CountIf(rows, p) >= 3
    ensures 0 <= i < j < k < |rows| && p(rows[i]) && p(rows[j]) && p(rows[k])
  {
    if p(rows[0]) {
      var j', k' := PickTwo(rows[1..], p);
      i, j, k := 0, j' + 1, k' + 1;
    } else {
      var i', j', k' := PickThree(rows[1..], p);
      i, j, k := i' + 1, j' + 1, k' + 1;
    }
  }

  lemma {:induction false} CountOne(rows: seq<Row>, p: Row -> bool, k: int)
    requires 0 <= k < |rows| && p(rows[k])
    ensures CountIf(rows, p) >= 1
  {
    if k > 0 {
      CountOne(rows[1..], p, k - 1);
    }
  }

  lemma {:induction false} CountTwo(rows: seq<Row>, p: Row -> bool, j: int, k: int)
    requires 0 <= j < k < |rows| && p(rows[j]) && p(rows[k])
    ensures CountIf(rows, p) >= 2
  {
    if j == 0 {
      CountOne(rows[1..], p, k - 1);
    } else {
      CountTwo(rows[1..], p, j - 1, k - 1);
    }
  }

  lemma {:induction false} CountThree(rows: seq<Row>, p: Row -> bool, i: int, j: int, k: int)
    requires 0 <= i < j < k < |rows| && p(rows[i]) && p(rows[j]) && p(rows[k])
    ensures CountIf(rows, p) >= 3
  {
    if i == 0 {
      CountTwo(rows[1..], p, j - 1, k - 1);
    } else {
      CountThree(rows[1..], p, i - 1, j - 1, k - 1);
    }
  }

  /** needs_review is returned exactly when no early exit applies and three
      distinct history rows are below threshold without an exception; it
      takes precedence over every watch rule, sudden drop included. */
  lemma NeedsReviewIffThreeLowWeeks(row: Row, weekStart: Date, recent: seq<Row>, previous: Option<Row>)
    ensures DetectEngagementStatus(row, weekStart, recent, previous) == NeedsReview
            <==> && !CheckExceptions(row.flags, weekStart)
                 && row.baselineScore.Some? && row.compositeScore.Some?
                 && exists i, j, k :: 0 <= i < j < k < |recent|
                      && BelowThreshold(recent[i]) && BelowThreshold(recent[j]) && BelowThreshold(recent[k])
  {
    ThreeWitnesses(recent, BelowThreshold);
  }

  /** The sustained watch rule: two low rows out of the same (at most
      three) history rows give watch when three do not give needs_review. */
  lemma TwoLowWeeksGiveWatch(row: Row, weekStart: Date, recent: seq<Row>, previous: Option<Row>)
    requires !CheckExceptions(row.flags, weekStart)
    requires row.baselineScore.Some? && row.compositeScore.Some?
    requires exists j, k :: 0 <= j < k < |recent| && BelowThreshold(recent[j]) && BelowThreshold(recent[k])
    requires CountIf(recent, BelowThreshold) < NeedsReviewWeeks
    ensures DetectEngagementStatus(row, weekStart, recent, previous) == Watch
  {
    TwoWitnesses(recent, BelowThreshold);
  }

  /** Below two low history rows the count rules are silent, and watch is
      returned exactly when one of the later rules fires: a sudden drop,
      low collaboration or sustained inactivity. */
  lemma LaterWatchRules(row: Row, weekStart: Date, recent: seq<Row>, previous: Option<Row>)
    requires !CheckExceptions(row.flags, weekStart)
    requires row.baselineScore.Some? && row.compositeScore.Some?
    requires CountIf(recent, BelowThreshold) < WatchWeeks
    ensures DetectEngagementStatus(row, weekStart, recent, previous) != NeedsReview
    ensures DetectEngagementStatus(row, weekStart, recent, previous) == Watch
            <==> || SuddenDrop(row.compositeScore.value, row.baselineScore.value, previous)
                 || LowCollaboration(row, recent)
                 || SustainedInactivity(row, recent)
  {
  }

  /** `get_recent_weeks_metrics` once its cutoff date is known: the user's
      rows with `cutoff <= week_start <= day`, newest first, at most `limit`
      of them. Walking the dates downward from `day` yields the descending
      order of the query directly. */
  function RecentWeeksFrom(t: Table, user: UserId, day: Date, cutoff: Date, limit: nat): (r: seq<Row>)
    decreases day - cutoff + 1
    ensures |r| <= limit
    ensures forall i :: 0 <= i < |r| ==>
              r[i].userId == user && cutoff <= r[i].weekStart <= day && Lookup(t, r[i].Key()) == Some(r[i])
    ensures forall i, j :: 0 <= i < j < |r| ==> r[i].weekStart > r[j].weekStart
  {
    if limit == 0 || day < cutoff then []
    else
      match Lookup(t, WeekKey(user, day))
      case Some(row) => [row] + RecentWeeksFrom(t, user, day - 1, cutoff, limit - 1)
      case None => RecentWeeksFrom(t, user, day - 1, cutoff, limit)
  }

  /** No row is skipped: a row of the user dated within `[cutoff, day]` is
      selected, unless `limit` newer rows were selected before it. */
  lemma {:induction false} RecentWeeksComplete(t: Table, user: UserId, day: Date, cutoff: Date, limit: nat, d: Date)
    requires cutoff <= d <= day && Lookup(t, WeekKey(user, d)).Some?
    decreases day - cutoff + 1
    ensures var r := RecentWeeksFrom(t, user, day, cutoff, limit);
            || Lookup(t, WeekKey(user, d)).value in r
            || (|r| == limit && forall i :: 0 <= i < |r| ==> d < r[i].weekStart)
  {
    if limit > 0 && d < day {
      match Lookup(t, WeekKey(user, day))
      case Some(row) =>
        RecentWeeksComplete(t, user, day - 1, cutoff, limit - 1, d);
        var rest := RecentWeeksFrom(t, user, day - 1, cutoff, limit - 1);
        assert RecentWeeksFrom(t, user, day, cutoff, limit) == [row] + rest;
      case None =>
        RecentWeeksComplete(t, user, day - 1, cutoff, limit, d);
    }
  }

  /** `get_recent_weeks_metrics(user, week_start, weeks)` with the clock
      reading `now`: the cutoff is the date `weeks` weeks before today. */
  function RecentWeeks(t: Table, user: UserId, weekStart: Date, now: Timestamp, weeks: nat): (r: seq<Row>)
    ensures |r| <= weeks
    ensures forall i :: 0 <= i < |r| ==>
              r[i].userId == user && DateOf(now) - 7 * weeks <= r[i].weekStart <= weekStart
  {
    RecentWeeksFrom(t, user, weekStart, WeeksAgoDate(now, weeks), weeks)
  }

  /** `get_previous_week_metrics`: the user's row for the date seven days
      before `week_start`, if there is one. */
  function PreviousWeek(t: Table, user: UserId, weekStart: Date): (r: Option<Row>)
    ensures r.Some? ==> r.value.userId == user && r.value.weekStart == weekStart - 7 && r.value in t
    ensures r.None? ==> forall i :: 0 <= i < |t| ==> t[i].Key() != WeekKey(user, weekStart - 7)
  {
    Lookup(t, WeekKey(user, weekStart - 7))
  }

  datatype DetectionError = MetricsNotFound(user: UserId, week: Date)

  /** The status `update_engagement_status` computes for a row, with the
      history fetched from the table as it stands. */
  function StatusFor(t: Table, row: Row, now: Timestamp): (s: Status)
    ensures CheckExceptions(row.flags, row.weekStart) ==> s == Healthy
    ensures row.baselineScore.None? || row.compositeScore.None? ==> s == Healthy
  {
    var recent := RecentWeeks(t, row.userId, row.weekStart, now, NeedsReviewWeeks);
    DetectEngagementStatus(row, row.weekStart, recent, PreviousWeek(t, row.userId, row.weekStart))
  }

  /** A stored needs_review rests on three of the user's own rows in the
      table, in three different weeks from three weeks before today up to
      the week itself, each below the low-engagement line without an
      exception. */
  lemma StatusForNeedsReview(t: Table, row: Row, now: Timestamp)
    ensures StatusFor(t, row, now) == NeedsReview ==>
      exists a, b, c :: a in t && b in t && c in t
        && a.userId == row.userId && b.userId == row.userId && c.userId == row.userId
        && row.weekStart >= a.weekStart > b.weekStart > c.weekStart >= DateOf(now) - 7 * NeedsReviewWeeks
        && BelowThreshold(a) && BelowThreshold(b) && BelowThreshold(c)
  {
    var cutoff := WeeksAgoDate(now, NeedsReviewWeeks);
    var recent := RecentWeeksFrom(t, row.userId, row.weekStart, cutoff, NeedsReviewWeeks);
    assert recent == RecentWeeks(t, row.userId, row.weekStart, now, NeedsReviewWeeks);
    if StatusFor(t, row, now) == NeedsReview {
      assert CountIf(recent, BelowThreshold) >= 3;
      LowRowsInTable(t, recent, row.userId, row.weekStart, cutoff);
    }
  }

  /** Three rows below the line in a newest-first history drawn from the
      table are three distinct weeks of the user's rows in the table. */
  lemma LowRowsInTable(t: Table, recent: seq<Row>, user: UserId, day: Date, cutoff: Date)
    requires forall i :: 0 <= i < |recent| ==>
      recent[i].userId == user && cutoff <= recent[i].weekStart <= day && Lookup(t, recent[i].Key()) == Some(recent[i])
    requires forall i, j :: 0 <= i < j < |recent| ==> recent[i].weekStart > recent[j].weekStart
    requires CountIf(recent, BelowThreshold) >= 3
    ensures exists a, b, c ::
              && a in t && b in t && c in t
              && a.userId == user && b.userId == user && c.userId == user
              && day >= a.weekStart > b.weekStart > c.weekStart >= cutoff
              && BelowThreshold(a) && BelowThreshold(b) && BelowThreshold(c)
  {
    ThreeWitnesses(recent, BelowThreshold);
    var i, j, k :| 0 <= i < j < k < |recent| && BelowThreshold(recent[i]) && BelowThreshold(recent[j]) && BelowThreshold(recent[k]);
    var a, b, c := recent[i], recent[j], recent[k];
    assert a in t && b in t && c in t;
    assert day >= a.weekStart > b.weekStart > c.weekStart >= cutoff;
  }

  /** `update_engagement_status`: fails when the (user, week) row is
      missing; otherwise stores the detected status on that row and changes
      nothing else. */
  function UpdateEngagementStatus(t: Table, user: UserId, weekStart: Date, now: Timestamp): (r: Result<Table, DetectionError>)
    ensures r.Err? <==> Lookup(t, WeekKey(user, weekStart)).None?
    ensures r.Err? ==> r.error == MetricsNotFound(user, weekStart)
    ensures r.Ok? ==>
      var before := Lookup(t, WeekKey(user, weekStart)).value;
      Lookup(r.value, WeekKey(user, weekStart))
        == Some(before.(engagementStatus := Some(StatusFor(t, before, now))))
    ensures r.Ok? ==> forall k :: k != WeekKey(user, weekStart) ==> Lookup(r.value, k) == Lookup(t, k)
    ensures r.Ok? ==> |r.value| == |t|
    ensures r.Ok? && Unique(t) ==> Unique(r.value)
  {
    match Lookup(t, WeekKey(user, weekStart))
    case None => Err(MetricsNotFound(user, weekStart))
    case Some(row) =>
      var updated := row.(engagementStatus := Some(StatusFor(t, row, now)));
      UpsertLookup(t, updated);
      UpsertKeepsUnique(t, updated);
      Ok(Upsert(t, updated))
  }

  /** A row with both scores and no flags. */
  function Scored(week: Date, raw: RawMetrics, composite: real, baseline: real): Row {
    Row(1, week, raw, Some(composite), Some(baseline), None, None)
  }

  /** Three consecutive weeks at half the baseline, no exceptions: the
      third week is classified needs_review. */
  lemma HalfBaselineThreeWeeksNeedsReview(baseline: real, raw: RawMetrics, previous: Option<Row>)
    requires baseline > 0.0
    ensures
      var recent := [Scored(14, raw, baseline * 0.5, baseline), Scored(7, raw, baseline * 0.5, baseline),
                     Scored(0, raw, baseline * 0.5, baseline)];
      DetectEngagementStatus(recent[0], 14, recent, previous) == NeedsReview
  {
    var recent := [Scored(14, raw, baseline * 0.5, baseline), Scored(7, raw, baseline * 0.5, baseline),
                   Scored(0, raw, baseline * 0.5, baseline)];
    assert BelowThreshold(recent[0]) && BelowThreshold(recent[1]) && BelowThreshold(recent[2]);
    ThreeWitnesses(recent, BelowThreshold);
  }

  /** Baseline 80, score 45 this week after 75 the week before (at least
      72 = 80 * 0.9): watch through the sudden-drop rule. */
  lemma SuddenDropExample()
    ensures
      var active := RawMetrics(1, 0.0, 0, 0, 0, 0, 0.0);
      var last := Scored(0, active, 75.0, 80.0);
      var now := Scored(7, active, 45.0, 80.0);
      DetectEngagementStatus(now, 7, [now, last], Some(last)) == Watch
  {
    var active := RawMetrics(1, 0.0, 0, 0, 0, 0, 0.0);
    var last := Scored(0, active, 75.0, 80.0);
    var now := Scored(7, active, 45.0, 80.0);
    assert CountIf([now, last], BelowThreshold) == 1 by {
      assert [now, last][1..] == [last];
      assert [last][1..] == [];
    }
  }

  /** No tickets, PRs or commits for two consecutive weeks and no flags:
      watch through the inactivity rule, even with scores at baseline. */
  lemma TwoIdleWeeksExample()
    ensures
      var last := Scored(0, ZeroMetrics, 50.0, 50.0);
      var now := Scored(7, ZeroMetrics, 50.0, 50.0);
      DetectEngagementStatus(now, 7, [now, last], Some(last)) == Watch
  {
    var last := Scored(0, ZeroMetrics, 50.0, 50.0);
    var now := Scored(7, ZeroMetrics, 50.0, 50.0);
    assert [now, last][1..] == [last];
    assert [last][1..] == [];
    assert CountIf([now, last], BelowThreshold) == 0;
    assert Take([now, last], InactivityWindow) == [now, last];
    assert CountIf([now, last], InactiveWeek) == 2;
  }
}

=== FILE: stats.dfy ===
/** Sums and arithmetic means over sequences of reals, shared by the cohort
    statistics, the baseline and the score trend. */
module Stats {

  function Sum(xs: seq<real>): real {
    if xs == [] then 0.0 else xs[0] + Sum(xs[1..])
  }

  function Mean(xs: seq<real>): (r: real)
    requires |xs| > 0
    ensures r * (|xs| as real) == Sum(xs)
  {
    Sum(xs) / (|xs| as real)
  }

  /** `m` is the arithmetic mean of a non-empty list. */
  predicate IsMeanOf(m: real, xs: seq<real>) {
    |xs| > 0 && m * (|xs| as real) == Sum(xs)
  }

  lemma MeanIsMean(xs: seq<real>)
    requires |xs| > 0
    ensures IsMeanOf(Mean(xs), xs)
  {
  }

  lemma {:induction false} SumConcat(a: seq<real>, b: seq<real>)
    ensures Sum(a + b) == Sum(a) + Sum(b)
  {
    if a == [] {
      assert a + b == b;
    } else {
      assert (a + b)[1..] == a[1..] + b;
      SumConcat(a[1..], b);
    }
  }

  /** If every element exceeds `c`, so does the mean. */
  lemma {:induction false} SumAbove(xs: seq<real>, c: real)
    requires |xs| > 0
    requires forall i :: 0 <= i < |xs| ==> xs[i] > c
    ensures Sum(xs) > (|xs| as real) * c
  {
    if |xs| > 1 {
      SumAbove(xs[1..], c);
    }
  }

  /** If every element is below `c`, so is the mean. */
  lemma {:induction false} SumBelow(xs: seq<real>, c: real)
    requires |xs| > 0
    requires forall i :: 0 <= i < |xs| ==> xs[i] < c
    ensures Sum(xs) < (|xs| as real) * c
  {
    if |xs| > 1 {
      SumBelow(xs[1..], c);
    }
  }

  /** The arithmetic mean lies between the least and the greatest element:
      some element is at most the mean and some element is at least it. */
  lemma MeanBetweenExtremes(xs: seq<real>)
    requires |xs| > 0
    ensures exists i :: 0 <= i < |xs| && xs[i] <= Mean(xs)
    ensures exists j :: 0 <= j < |xs| && Mean(xs) <= xs[j]
  {
    if forall i :: 0 <= i < |xs| ==> xs[i] > Mean(xs) {
      SumAbove(xs, Mean(xs));
      assert false;
    }
    if forall j :: 0 <= j < |xs| ==> xs[j] < Mean(xs) {
      SumBelow(xs, Mean(xs));
      assert false;
    }
  }

  /** The mean of a constant sequence is that constant. */
  lemma {:induction false} MeanOfConstant(xs: seq<real>, c: real)
    requires |xs| > 0
    requires forall i :: 0 <= i < |xs| ==> xs[i] == c
    ensures Mean(xs) == c
  {
    SumOfConstant(xs, c);
  }

  lemma {:induction false} SumOfConstant(xs: seq<real>, c: real)
    requires forall i :: 0 <= i < |xs| ==> xs[i] == c
    ensures Sum(xs) == (|xs| as real) * c
  {
    if xs != [] {
      SumOfConstant(xs[1..], c);
    }
  }

  /** Scaling every element scales the sum. */
  lemma {:induction false} SumScale(xs: seq<real>, k: real)
    ensures Sum(Scale(xs, k)) == k * Sum(xs)
  {
    if xs != [] {
      assert Scale(xs, k)[1..] == Scale(xs[1..], k);
      SumScale(xs[1..], k);
    }
  }

  function Scale(xs: seq<real>, k: real): (ys: seq<real>)
    ensures |ys| == |xs|
    ensures forall i :: 0 <= i < |xs| ==> ys[i] == k * xs[i]
  {
    if xs == [] then [] else [k * xs[0]] + Scale(xs[1..], k)
  }

  /** Sample variance (`statistics.variance`): squared deviations from the
      mean, divided by n - 1. */
  function SampleVariance(xs: seq<real>): real
    requires |xs| > 1
  {
    SumOfSquares(xs, Mean(xs)) / ((|xs| - 1) as real)
  }

  function SumOfSquares(xs: seq<real>, mu: real): real {
    if xs == [] then 0.0 else (xs[0] - mu) * (xs[0] - mu) + SumOfSquares(xs[1..], mu)
  }

  lemma {:induction false} SquaresVanish(xs: seq<real>, mu: real)
    requires forall i :: 0 <= i < |xs| ==> xs[i] == mu
    ensures SumOfSquares(xs, mu) == 0.0
  {
    if xs != [] {
      SquaresVanish(xs[1..], mu);
    }
  }

  /** A column whose values are all equal has sample variance zero. */
  lemma ConstantHasNoVariance(xs: seq<real>)
    requires |xs| > 1
    requires forall i :: 0 <= i < |xs| ==> xs[i] == xs[0]
    ensures SampleVariance(xs) == 0.0
  {
    MeanOfConstant(xs, xs[0]);
    SquaresVanish(xs, xs[0]);
  }
}

=== FILE: store.dfy ===
/** The `weekly_user_metrics` table as a sequence of rows. The unique index
    on (user_id, week_start) becomes the invariant `Unique`, and `AsMap`
    views a table as the map from key to row that the invariant makes it. */
module Store {
  import opened Wrappers
  import opened Records

  type Table = seq<Row>

  /** At most one row per (user, week). */
  predicate Unique(t: Table) {
    forall i, j :: 0 <= i < j < |t| ==> t[i].Key() != t[j].Key()
  }

  /** `query(...).filter(user_id == u, week_start == w).first()`. */
  function Lookup(t: Table, k: WeekKey): (r: Option<Row>)
    ensures r.None? <==> forall i :: 0 <= i < |t| ==> t[i].Key() != k
    ensures r.Some? ==> r.value in t && r.value.Key() == k
    ensures Unique(t) ==> forall i :: 0 <= i < |t| && t[i].Key() == k ==> r == Some(t[i])
  {
    if t == [] then None
    else if t[0].Key() == k then Some(t[0])
    else Lookup(t[1..], k)
  }

  /** The keyed view of a table; the first row of a key wins, like `Lookup`. */
  function AsMap(t: Table): map<WeekKey, Row> {
    if t == [] then map[] else AsMap(t[1..])[t[0].Key() := t[0]]
  }

  /** The keyed view answers every key as `Lookup` does. */
  lemma {:induction false} AsMapAgreesWithLookup(t: Table, k: WeekKey)
    ensures k in AsMap(t) <==> Lookup(t, k).Some?
    ensures k in AsMap(t) ==> Lookup(t, k) == Some(AsMap(t)[k])
  {
    if t != [] {
      AsMapAgreesWithLookup(t[1..], k);
    }
  }

  /** Writes a row: overwrites the row of the same key in place, or appends
      a new one. This is the get-or-create-then-commit of the services. */
  function Upsert(t: Table, r: Row): (u: Table)
    ensures r in u
    ensures forall x :: x in u ==> x == r || x in t
    ensures |t| <= |u| <= |t| + 1
  {
    if t == [] then [r]
    else if t[0].Key() == r.Key() then [r] + t[1..]
    else [t[0]] + Upsert(t[1..], r)
  }

  lemma LookupCons(x: Row, s: Table, k: WeekKey)
    ensures Lookup([x] + s, k) == if x.Key() == k then Some(x) else Lookup(s, k)
  {
    assert ([x] + s)[1..] == s;
  }

  /** After an upsert the key holds the written row, every other key reads
      as before, and the table grows by one row exactly when the key was new. */
  lemma {:induction false} UpsertLookup(t: Table, r: Row)
    ensures |Upsert(t, r)| == if Lookup(t, r.Key()).Some? then |t| else |t| + 1
    ensures Lookup(Upsert(t, r), r.Key()) == Some(r)
    ensures forall k :: k != r.Key() ==> Lookup(Upsert(t, r), k) == Lookup(t, k)
  {
    if t == [] {
      forall k | k != r.Key()
        ensures Lookup(Upsert(t, r), k) == Lookup(t, k)
      {
        LookupCons(r, [], k);
      }
    } else if t[0].Key() == r.Key() {
      forall k
        ensures Lookup(Upsert(t, r), k) == if k == r.Key() then Some(r) else Lookup(t, k)
      {
        LookupCons(r, t[1..], k);
        LookupCons(t[0], t[1..], k);
        assert t == [t[0]] + t[1..];
      }
    } else {
      UpsertLookup(t[1..], r);
      forall k
        ensures Lookup(Upsert(t, r), k) == if k == r.Key() then Some(r) else Lookup(t, k)
      {
        LookupCons(t[0], Upsert(t[1..], r), k);
        LookupCons(t[0], t[1..], k);
        assert t == [t[0]] + t[1..];
      }
    }
  }

  /** An upsert keeps the one-row-per-(user, week) invariant. */
  lemma {:induction false} UpsertKeepsUnique(t: Table, r: Row)
    ensures Unique(t) ==> Unique(Upsert(t, r))
  {
    if t == [] || !Unique(t) {
    } else if t[0].Key() == r.Key() {
      assert Upsert(t, r) == t[0 := r];
    } else {
      var rest := t[1..];
      UpsertKeepsUnique(rest, r);
      UpsertLookup(rest, r);
      var u := Upsert(rest, r);
      assert Lookup(rest, t[0].Key()).None?;
      assert Lookup(u, t[0].Key()).None?;
      assert Upsert(t, r) == [t[0]] + u;
    }
  }

  /** Seen through the keyed view, an upsert is a map update. */
  lemma {:induction false} UpsertIsMapUpdate(t: Table, r: Row)
    ensures AsMap(Upsert(t, r)) == AsMap(t)[r.Key() := r]
  {
    if t == [] {
    } else if t[0].Key() == r.Key() {
      assert ([r] + t[1..])[1..] == t[1..];
    } else {
      var rest := Upsert(t[1..], r);
      assert ([t[0]] + rest)[1..] == rest;
      UpsertIsMapUpdate(t[1..], r);
      var m := AsMap(t[1..]);
      assert m[r.Key() := r][t[0].Key() := t[0]] == m[t[0].Key() := t[0]][r.Key() := r];
    }
  }

  /** Writing back the row a key already holds leaves the table unchanged. */
  lemma {:induction false} UpsertSameRow(t: Table, r: Row)
    requires Lookup(t, r.Key()) == Some(r)
    ensures Upsert(t, r) == t
  {
    if t[0].Key() != r.Key() {
      UpsertSameRow(t[1..], r);
    }
  }
}

=== FILE: time.dfy ===
/** Week arithmetic of `backend/app/utils/time.py`.

    A timestamp is an integer number of microseconds (the resolution of a
    Python `datetime`) counted from an epoch that is a Monday at 00:00:00.
    A date is an integer number of days from the same epoch, so day 0 is a
    Monday and `date.weekday()` is the day number modulo 7. Dafny's `/` and
    `%` on `int` are Euclidean, which for the positive divisors used here is
    the same as Python's floor division. */
module Time {

  type Timestamp = int
  type Date = int

  const SecondMicros: int := 1_000_000
  const MinuteMicros: int := 60_000_000
  const HourMicros: int := 3_600_000_000
  const DayMicros: int := 86_400_000_000
  const WeekMicros: int := 604_800_000_000

  /** `datetime.date()`: the calendar day a timestamp falls on. */
  function DateOf(t: Timestamp): (d: Date)
    ensures AtMidnight(d) <= t < AtMidnight(d) + DayMicros
  {
    t / DayMicros
  }

  /** `datetime.combine(d, datetime.min.time())`. */
  function AtMidnight(d: Date): Timestamp {
    d * DayMicros
  }

  /** `datetime.combine(d, datetime.max.time())`: 23:59:59.999999 on day `d`. */
  function LastInstant(d: Date): (t: Timestamp)
    ensures DateOf(t) == d
    ensures DateOf(t + 1) == d + 1
  {
    AtMidnight(d) + (DayMicros - 1)
  }

  /** `weekday()`: 0 for Monday up to 6 for Sunday. */
  function Weekday(d: Date): int {
    d % 7
  }

  /** Microseconds elapsed since midnight of the timestamp's own day. */
  function TimeOfDay(t: Timestamp): int {
    t % DayMicros
  }

  /** `get_week_start`: step back `weekday()` whole days, then reset the
      clock fields to midnight. The result is the Monday 00:00:00.000000 of
      the week holding `t`. */
  function WeekStart(t: Timestamp): (s: Timestamp)
    ensures Weekday(DateOf(s)) == 0 && TimeOfDay(s) == 0
    ensures s % WeekMicros == 0
    ensures s <= t < s + WeekMicros
  {
    var shifted := t - Weekday(DateOf(t)) * DayMicros;
    WeekStartShape(t);
    shifted - TimeOfDay(shifted)
  }

  /** Stepping back `weekday()` days and dropping the time of day lands on
      the multiple of a week at or below `t`. */
  lemma WeekStartShape(t: Timestamp)
    ensures var shifted := t - Weekday(DateOf(t)) * DayMicros;
            var s := shifted - TimeOfDay(shifted);
            && s == (t / WeekMicros) * WeekMicros
            && s <= t < s + WeekMicros
            && s % WeekMicros == 0
            && Weekday(DateOf(s)) == 0 && TimeOfDay(s) == 0
  {
    var d := t / DayMicros;
    var tod := t % DayMicros;
    var q := d / 7;
    var w := d % 7;
    assert t == d * DayMicros + tod;
    assert d == 7 * q + w;
    var shifted := t - w * DayMicros;
    assert shifted == (7 * q) * DayMicros + tod;
    DayMultiple(7 * q, tod);
    var s := shifted - tod;
    assert s == (7 * q) * DayMicros;
    DayMultiple(7 * q, 0);
    assert 7 * q % 7 == 0;
    assert s == q * WeekMicros;
    assert t == q * WeekMicros + (w * DayMicros + tod);
    assert 0 <= w * DayMicros + tod < WeekMicros;
    BlockOf(t, q);
    WeekMultiple(q);
  }

  /** Day `d` plus `r` microseconds falls on day `d` with time of day `r`. */
  lemma DayMultiple(d: int, r: int)
    requires 0 <= r < DayMicros
    ensures (d * DayMicros + r) / DayMicros == d
    ensures (d * DayMicros + r) % DayMicros == r
  {
  }

  lemma WeekMultiple(q: int)
    ensures (q * WeekMicros) % WeekMicros == 0
  {
    BlockOf(q * WeekMicros, q);
  }

  /** The Monday-midnight timestamp that opens a week is the only one whose
      week contains `t`. */
  lemma {:induction false} WeekStartUnique(t: Timestamp, m: Timestamp)
    requires m % WeekMicros == 0 && m <= t < m + WeekMicros
    ensures WeekStart(t) == m
  {
    var s := WeekStart(t);
    BlockOf(t, s / WeekMicros);
    BlockOf(t, m / WeekMicros);
  }

  /** A timestamp inside the `q`-th week of the grid has quotient `q`. */
  lemma BlockOf(t: Timestamp, q: int)
    requires q * WeekMicros <= t < q * WeekMicros + WeekMicros
    ensures t / WeekMicros == q
  {
    var r := t - q * WeekMicros;
    assert t == q * WeekMicros + r && 0 <= r < WeekMicros;
  }

  /** `get_week_start` is idempotent. */
  lemma WeekStartIdempotent(t: Timestamp)
    ensures WeekStart(WeekStart(t)) == WeekStart(t)
  {
    WeekStartUnique(WeekStart(t), WeekStart(t));
  }

  /** `get_week_range` as written: from the week start to 6 days 23:59:59
      later. A timestamp with a fractional last second on Sunday lies after
      the returned end although `get_week_start` puts it in the week
      (see `WeekRangeMissesLastSecond`). */
  function WeekRange(t: Timestamp): (r: (Timestamp, Timestamp))
    ensures r.0 == WeekStart(t)
    ensures r.1 == r.0 + WeekMicros - SecondMicros
    ensures t % SecondMicros == 0 ==> r.0 <= t <= r.1
  {
    var start := WeekStart(t);
    var end := start + 6 * DayMicros + 23 * HourMicros + 59 * MinuteMicros + 59 * SecondMicros;
    WholeSecondInRange(t, start);
    (start, end)
  }

  lemma WholeSecondInRange(t: Timestamp, start: Timestamp)
    requires start % WeekMicros == 0 && start <= t < start + WeekMicros
    ensures t % SecondMicros == 0 ==> t <= start + WeekMicros - SecondMicros
  {
    if t % SecondMicros == 0 {
      var k := t / SecondMicros;
      var j := start / WeekMicros;
      assert t == k * SecondMicros;
      assert start == (j * 604_800) * SecondMicros;
      assert k < j * 604_800 + 604_800;
    }
  }

  /** The discrepancy: the last microsecond of Sunday belongs to the week of
      `get_week_start` but lies after the end `get_week_range` reports. */
  lemma WeekRangeMissesLastSecond(t: Timestamp)
    ensures var late := WeekStart(t) + WeekMicros - 1;
            && WeekStart(late) == WeekStart(t)
            && late > WeekRange(t).1
  {
    var late := WeekStart(t) + WeekMicros - 1;
    WeekStartUnique(late, WeekStart(t));
  }

  /** The evidently intended week range: closed at the last microsecond of
      Sunday, so that it holds exactly the timestamps of the week. */
  function WeekRangeInclusive(t: Timestamp): (r: (Timestamp, Timestamp))
    ensures r.0 == WeekStart(t)
    ensures forall u :: r.0 <= u <= r.1 <==> WeekStart(u) == r.0
  {
    var start := WeekStart(t);
    WeekMembership(start);
    (start, start + WeekMicros - 1)
  }

  /** A week opened by a Monday-midnight `start` holds exactly the timestamps
      whose week start is `start`. */
  lemma WeekMembership(start: Timestamp)
    requires start % WeekMicros == 0
    ensures forall u :: start <= u <= start + WeekMicros - 1 <==> WeekStart(u) == start
  {
    forall u | start <= u <= start + WeekMicros - 1
      ensures WeekStart(u) == start
    {
      WeekStartUnique(u, start);
    }
  }

  /** `is_same_week`: both timestamps have the same week start. */
  function IsSameWeek(a: Timestamp, b: Timestamp): (r: bool)
    ensures r <==> WeekStart(a) <= b < WeekStart(a) + WeekMicros
  {
    WeekMembership(WeekStart(a));
    WeekStart(a) == WeekStart(b)
  }

  /** `is_same_week` is an equivalence relation. */
  lemma SameWeekIsEquivalence(a: Timestamp, b: Timestamp, c: Timestamp)
    ensures IsSameWeek(a, a)
    ensures IsSameWeek(a, b) <==> IsSameWeek(b, a)
    ensures IsSameWeek(a, b) && IsSameWeek(b, c) ==> IsSameWeek(a, c)
  {
  }

  /** `get_weeks_ago(weeks).date()` with the clock reading `now` passed in:
      the date exactly `7 * weeks` days before today's date. */
  function WeeksAgoDate(now: Timestamp, weeks: int): (d: Date)
    ensures d == DateOf(now) - 7 * weeks
  {
    var earlier := now - weeks * WeekMicros;
    assert earlier == now - (7 * weeks) * DayMicros;
    DateOf(earlier)
  }
}

=== FILE: weekly_reduction.dfy ===
/** `MetricsService.calculate_weekly_metrics`
    (`backend/app/services/metrics_service.py`): the events of one user
    inside the window built from `week_start` are folded into seven raw
    counters. The event query is the event log passed in and filtered here. */
module WeeklyReduction {
  import opened Wrappers
  import opened Time
  import opened Records

  /** The query bounds: `datetime.combine(week_start, min.time())` and
      `datetime.combine(week_start, max.time())`. Both come from the same
      date, so the window is one day long; both bounds are closed. */
  predicate InWindow(t: Timestamp, weekStart: Date) {
    AtMidnight(weekStart) <= t <= LastInstant(weekStart)
  }

  /** The window holds exactly the timestamps whose calendar date is
      `week_start` itself; the six later days of the week are outside it. */
  lemma WindowIsOneDay(t: Timestamp, weekStart: Date)
    ensures InWindow(t, weekStart) <==> DateOf(t) == weekStart
    ensures !InWindow(AtMidnight(weekStart + 1), weekStart)
  {
  }

  /** The events the query returns for `user`, in log order. */
  function WindowEvents(events: seq<Event>, user: UserId, weekStart: Date): (r: seq<Event>)
    ensures forall e :: e in r <==> e in events && e.userId == user && InWindow(e.occurredAt, weekStart)
    ensures |r| <= |events|
  {
    if events == [] then []
    else
      var rest := WindowEvents(events[1..], user, weekStart);
      var e := events[0];
      if e.userId == user && InWindow(e.occurredAt, weekStart) then [e] + rest else rest
  }

  /** The query drops no duplicate: each event of the user inside the window
      is returned as many times as it occurs in the log, any other none. */
  lemma {:induction false} WindowEventsCounts(events: seq<Event>, user: UserId, weekStart: Date)
    ensures forall e ::
      multiset(WindowEvents(events, user, weekStart))[e] == (if e.userId == user && InWindow(e.occurredAt, weekStart) then multiset(events)[e] else 0)
  {
    if events != [] {
      WindowEventsCounts(events[1..], user, weekStart);
      assert events == [events[0]] + events[1..];
    }
  }

  /** `metadata and key in metadata`, then `metadata[key]`. */
  function MetaValue(md: Metadata, key: string): Option<real> {
    if md.Some? && key in md.value then Some(md.value[key]) else None
  }

  /** Python's `int(x)` on a float: truncation toward zero. */
  function Truncate(x: real): (n: int)
    ensures 0.0 <= x ==> 0 <= n && n as real <= x < n as real + 1.0
    ensures x < 0.0 ==> n <= 0 && x <= n as real < x + 1.0
  {
    if x >= 0.0 then x.Floor else -((-x).Floor)
  }

  /** The loop body: one event updates at most one counter. */
  function Step(m: RawMetrics, e: Event): RawMetrics {
    if e.source == "jira" && e.eventType == "ticket_completed" then
      var sp := match MetaValue(e.metadata, "story_points")
                case Some(v) => m.storyPoints + v
                case None => m.storyPoints;
      m.(ticketsCompleted := m.ticketsCompleted + 1, storyPoints := sp)
    else if e.source == "github" then
      if e.eventType == "pr_merged" then m.(prsAuthored := m.prsAuthored + 1)
      else if e.eventType == "pr_reviewed" then m.(prsReviewed := m.prsReviewed + 1)
      else if e.eventType == "commits" then
        match MetaValue(e.metadata, "count")
        case Some(v) => m.(commits := m.commits + Truncate(v))
        case None => m
      else m
    else if e.source == "docs" && e.eventType == "doc_created" then
      m.(docsAuthored := m.docsAuthored + 1)
    else if e.source == "calendar" && e.eventType == "meeting" then
      match MetaValue(e.metadata, "duration_hours")
      case Some(v) => m.(meetingHours := m.meetingHours + v)
      case None => m
    else m
  }

  /** The `for event in events` loop, starting from all-zero counters. */
  function Tally(events: seq<Event>): RawMetrics {
    if events == [] then ZeroMetrics
    else Step(Tally(events[..|events| - 1]), events[|events| - 1])
  }

  /** `calculate_weekly_metrics` with the event table passed in. */
  function WeeklyMetrics(events: seq<Event>, user: UserId, weekStart: Date): RawMetrics {
    Tally(WindowEvents(events, user, weekStart))
  }

  /** Appending an event to the log appends it to the query's answer when
      it is the user's and inside the window, and changes nothing otherwise. */
  lemma {:induction false} WindowEventsSnoc(events: seq<Event>, e: Event, user: UserId, weekStart: Date)
    ensures WindowEvents(events + [e], user, weekStart) ==
      WindowEvents(events, user, weekStart) + (if e.userId == user && InWindow(e.occurredAt, weekStart) then [e] else [])
  {
    var all := events + [e];
    if events == [] {
      assert all == [e];
      assert all[1..] == [];
    } else {
      var x := events[0];
      WindowEventsSnoc(events[1..], e, user, weekStart);
      assert all[0] == x;
      assert all[1..] == events[1..] + [e];
      var tail := WindowEvents(events[1..], user, weekStart);
      if x.userId == user && InWindow(x.occurredAt, weekStart) {
        assert WindowEvents(events, user, weekStart) == [x] + tail;
      } else {
        assert WindowEvents(events, user, weekStart) == tail;
      }
    }
  }

  /** One more logged event changes the week's counters by exactly one loop
      step when it is the user's and inside the window, and not at all
      otherwise. */
  lemma WeeklyMetricsSnoc(events: seq<Event>, e: Event, user: UserId, weekStart: Date)
    ensures WeeklyMetrics(events + [e], user, weekStart) ==
      if e.userId == user && InWindow(e.occurredAt, weekStart) then Step(WeeklyMetrics(events, user, weekStart), e)
      else WeeklyMetrics(events, user, weekStart)
  {
    WindowEventsSnoc(events, e, user, weekStart);
    var w := WindowEvents(events, user, weekStart);
    if e.userId == user && InWindow(e.occurredAt, weekStart) {
      var we := w + [e];
      assert we[..|we| - 1] == w;
      assert we[|we| - 1] == e;
      assert Tally(we) == Step(Tally(w), e);
    } else {
      assert w + [] == w;
    }
  }

  /** The week's counters are the independent per-pair counts and sums over
      the user's events inside the window. */
  lemma WeeklyMetricsCounts(events: seq<Event>, user: UserId, weekStart: Date)
    ensures WeeklyMetrics(events, user, weekStart) == Reference(WindowEvents(events, user, weekStart))
  {
    TallyCountsEvents(WindowEvents(events, user, weekStart));
  }

  // Reference definitions: each counter on its own, by a separate pass.

  predicate Is(e: Event, source: string, eventType: string) {
    e.source == source && e.eventType == eventType
  }

  /** The number of events with this (source, type) pair. */
  function Count(events: seq<Event>, source: string, eventType: string): nat {
    if events == [] then 0
    else (if Is(events[0], source, eventType) then 1 else 0) + Count(events[1..], source, eventType)
  }

  /** The sum of metadata `key` over events with this pair that carry it. */
  function MetaSum(events: seq<Event>, source: string, eventType: string, key: string): real {
    if events == [] then 0.0
    else
      var here := if Is(events[0], source, eventType) then MetaValue(events[0].metadata, key).GetOr(0.0) else 0.0;
      here + MetaSum(events[1..], source, eventType, key)
  }

  /** The sum of truncated `count` values over the `commits` batch events. */
  function CommitSum(events: seq<Event>): int {
    if events == [] then 0
    else
      var here := if Is(events[0], "github", "commits") then Truncate(MetaValue(events[0].metadata, "count").GetOr(0.0)) else 0;
      here + CommitSum(events[1..])
  }

  /** The counters, each computed on its own. */
  function Reference(events: seq<Event>): RawMetrics {
    RawMetrics(
      Count(events, "jira", "ticket_completed"),
      MetaSum(events, "jira", "ticket_completed", "story_points"),
      Count(events, "github", "pr_merged"),
      Count(events, "github", "pr_reviewed"),
      CommitSum(events),
      Count(events, "docs", "doc_created"),
      MetaSum(events, "calendar", "meeting", "duration_hours"))
  }

  function Plus(a: RawMetrics, b: RawMetrics): RawMetrics {
    RawMetrics(
      a.ticketsCompleted + b.ticketsCompleted, a.storyPoints + b.storyPoints,
      a.prsAuthored + b.prsAuthored, a.prsReviewed + b.prsReviewed,
      a.commits + b.commits, a.docsAuthored + b.docsAuthored,
      a.meetingHours + b.meetingHours)
  }

  lemma {:induction false} ReferenceConcat(a: seq<Event>, b: seq<Event>)
    ensures Reference(a + b) == Plus(Reference(a), Reference(b))
  {
    if a == [] {
      assert a + b == b;
    } else {
      assert (a + b)[1..] == a[1..] + b;
      ReferenceConcat(a[1..], b);
    }
  }

  lemma SingleEvent(e: Event, source: string, eventType: string, key: string)
    ensures Count([e], source, eventType) == if Is(e, source, eventType) then 1 else 0
    ensures MetaSum([e], source, eventType, key)
            == if Is(e, source, eventType) then MetaValue(e.metadata, key).GetOr(0.0) else 0.0
  {
    assert [e][1..] == [];
  }

  /** One step of the loop adds the counters of that single event. */
  lemma StepAddsEvent(m: RawMetrics, e: Event)
    ensures Step(m, e) == Plus(m, Reference([e]))
  {
    assert [e][1..] == [];
    var sp := if Is(e, "jira", "ticket_completed") then MetaValue(e.metadata, "story_points").GetOr(0.0) else 0.0;
    var c := if Is(e, "github", "commits") then Truncate(MetaValue(e.metadata, "count").GetOr(0.0)) else 0;
    var h := if Is(e, "calendar", "meeting") then MetaValue(e.metadata, "duration_hours").GetOr(0.0) else 0.0;
    SingleEvent(e, "jira", "ticket_completed", "story_points");
    SingleEvent(e, "github", "pr_merged", "");
    SingleEvent(e, "github", "pr_reviewed", "");
    SingleEvent(e, "docs", "doc_created", "");
    SingleEvent(e, "calendar", "meeting", "duration_hours");
    assert CommitSum([e]) == c;
    assert Reference([e]) == RawMetrics(
      if Is(e, "jira", "ticket_completed") then 1 else 0, sp,
      if Is(e, "github", "pr_merged") then 1 else 0,
      if Is(e, "github", "pr_reviewed") then 1 else 0, c,
      if Is(e, "docs", "doc_created") then 1 else 0, h);
  }

  /** The fold agrees with the per-counter reference: `tickets_completed` is
      the number of (jira, ticket_completed) events, `prs_authored` of
      (github, pr_merged), `prs_reviewed` of (github, pr_reviewed),
      `docs_authored` of (docs, doc_created); `story_points`, `commits` and
      `meeting_hours` add the metadata values that are present; every other
      pair changes nothing. */
  lemma {:induction false} TallyCountsEvents(events: seq<Event>)
    ensures Tally(events) == Reference(events)
  {
    if events != [] {
      var init := events[..|events| - 1];
      var last := events[|events| - 1];
      TallyCountsEvents(init);
      ReferenceConcat(init, [last]);
      StepAddsEvent(Tally(init), last);
      assert init + [last] == events;
    }
  }

  /** Counting does not depend on the order the query returns events in. */
  lemma TallyIgnoresOrder(a: seq<Event>, b: seq<Event>)
    ensures Tally(a + b) == Tally(b + a)
    ensures Tally(a + b) == Plus(Tally(a), Tally(b))
  {
    TallyCountsEvents(a + b);
    TallyCountsEvents(b + a);
    TallyCountsEvents(a);
    TallyCountsEvents(b);
    ReferenceConcat(a, b);
    ReferenceConcat(b, a);
  }

  /** An event whose (source, type) pair is not recognised changes nothing. */
  lemma UnrecognisedEventIgnored(events: seq<Event>, e: Event)
    requires !Is(e, "jira", "ticket_completed") && !Is(e, "github", "pr_merged")
    requires !Is(e, "github", "pr_reviewed") && !Is(e, "github", "commits")
    requires !Is(e, "docs", "doc_created") && !Is(e, "calendar", "meeting")
    ensures Tally(events + [e]) == Tally(events)
  {
    assert (events + [e])[..|events + [e]| - 1] == events;
  }

  predicate NonNegativeMetadata(e: Event) {
    e.metadata.Some? ==> forall k :: k in e.metadata.value ==> e.metadata.value[k] >= 0.0
  }

  predicate NonNegative(m: RawMetrics) {
    && m.ticketsCompleted >= 0 && m.storyPoints >= 0.0 && m.prsAuthored >= 0
    && m.prsReviewed >= 0 && m.commits >= 0 && m.docsAuthored >= 0 && m.meetingHours >= 0.0
  }

  /** With non-negative metadata values every counter is non-negative;
      absent metadata contributes zero. */
  lemma {:induction false} TallyNonNegative(events: seq<Event>)
    requires forall i :: 0 <= i < |events| ==> NonNegativeMetadata(events[i])
    ensures NonNegative(Tally(events))
  {
    if events != [] {
      TallyNonNegative(events[..|events| - 1]);
    }
  }
}

=== FILE: wrappers.dfy ===
/** Optional values and results used across the model: an optional value (the
    source's `None`) and a success-or-error result (the source's raised
    `ValueError`). */
module Wrappers {

  datatype Option<+T> = None | Some(value: T) {

    /** The value, or `default` when absent (Python's `x or default` on a
        nullable column). */
    function GetOr(default: T): T {
      match this
      case Some(v) => v
      case None => default
    }
  }

  datatype Result<+T, +E> = Ok(value: T) | Err(error: E)
}
